=== FILE: README.md ===
# Study-tracker backend: route handlers as store transitions

This project models the write paths of a habit and study-timer backend. Users join
studies, tick habits per weekday, react to a study with emoji counters, and log timer
sessions that earn points. The model covers the Express route handlers in
`src/routes/{timers,habits,emojis,studies,users}.js`. It uses the Mongoose schemas in
`src/models/*.js` as save-time validation.

The database is an immutable `Records.Store`. It holds one map from id to record for each
collection, plus a counter that hands out fresh ids. Each handler is a pure function from
a store and a request body to a `Reply`: the next store plus a tagged result (`Ok` or one
of `NotFound`, `BadRequest`, `ValidationFailed`, `Unauthorized`, `InternalError`). The
handlers' intermediate saves are modelled too. When a handler writes one document and
then fails, the first write stays in the next store, as it does in the database.
`InternalError` stands for a handler that threw, usually by dereferencing a document
that its lookup did not find.

Modules:

- `Common`: ids, optional body fields, JavaScript truthiness (`x || fallback`) and `$pull`.
- `Records`: one datatype per document, the schema validators, and the store invariant
  `Wf`. Under `Wf`, ids lie below the counter, including the ids in a study's habit and
  emoji arrays, and every stored user, study, habit and timer is valid.
- `Ledger`: the points formula `floor(duration / 60)` and the sum of `earnedPoints` per
  user. It also defines the ledger invariant `Holds`: every balance equals what the
  user's timers earned.
- `Timers`, `Users`, `Studies`, `Habits`, `Emojis`: one module per route file.

The fields the routes use but the schemas do not declare (`Timer.userId`,
`Emoji.count`, `Habit.checkedDays`) are modelled as the routes use them.

## Model

| member | source | states |
|---|---|---|
| `Ledger.Earned` | src/routes/timers.js:88-89 | a session earns the number of whole minutes in its duration: `60*r <= d < 60*r + 60`, zero under a minute, never negative for a valid duration |
| `Ledger.EarnedMonotone` | src/routes/timers.js:89 | a longer session never earns fewer points |
| `Ledger.CreditedRemove` | src/routes/timers.js:101-102 | a user's credited sum does not depend on the order the timers are summed in: taking any one timer out leaves the sum minus its share |
| `Ledger.CreditedInsert` | src/routes/timers.js:98-102 | saving a new timer adds exactly its earned points to its owner's credited sum and nothing to anyone else's |
| `Ledger.CreditedReplace` | src/routes/timers.js:137-143 | overwriting a timer swaps its old share for its new one in its owner's sum |
| `Ledger.CreditedDelete` | src/routes/timers.js:167-171 | deleting a timer removes its share from its owner's sum |
| `Ledger.CreditedCoversShare` | src/models/Timer.js:10-14 | with every stored `earnedPoints >= 0`, a user's sum covers each of its timers' shares, and the rest is never negative |
| `Ledger.CreditedUnreferenced` | src/routes/users.js:31-33 | a user that no timer names is credited nothing |
| `Ledger.EmptyHolds` | src/models/User.js:5-9 | the empty database satisfies the ledger |
| `Records.EmptyIsWf` | src/models/User.js:5-9 | the empty database satisfies the store invariant |
| `Common.RequiredText` | src/models/Habit.js:5-9 | a required string is rejected exactly when it is absent or empty |
| `Common.Pull` | src/routes/habits.js:134-136 | `$pull` removes every occurrence of the id, keeps the multiplicity of every other id, and leaves an array without the id unchanged |
| `Common.PullConcat` | src/routes/habits.js:134-136 | `$pull` keeps order: pulling from a concatenation concatenates the pulled halves |
| `Common.PullAppended` | src/routes/emojis.js:155-158 | a `$pull` of an id that was just pushed, and that occurred nowhere before, gives the original array back |
| `Timers.Create` | src/routes/timers.js:75-113 | the user is checked before the study, and either one missing gives NotFound with nothing written; a negative duration is rejected with nothing written; on success the timer is stored under a fresh id with `earnedPoints = floor(duration/60)`, its user is credited exactly that, and nothing else changes |
| `Timers.Edit` | src/routes/timers.js:116-154 | a missing timer gives NotFound and an invalid patched timer changes nothing; otherwise the timer is saved first, the user is touched only if the earned points changed, and then moves by `new - old`; a missing owner gives InternalError after the timer was saved, and no failure touches any user; the edit succeeds exactly when the patched timer is valid and either its points are unchanged or the owner exists and `points - old + new` is not negative |
| `Timers.Delete` | src/routes/timers.js:157-176 | succeeds exactly when the owner exists and holds at least the timer's points; the owner then loses exactly those points and the timer goes; on every failure nothing changes |
| `Timers.CreateKeepsLedger` | src/routes/timers.js:98-102 | recording a session keeps every balance equal to its timers' sum, on every outcome |
| `Timers.EditKeepsLedger` | src/routes/timers.js:137-144 | editing a timer keeps the ledger on every outcome, including the save-first failure paths |
| `Timers.DeleteKeepsLedger` | src/routes/timers.js:166-171 | deleting a timer keeps the ledger on every outcome |
| `Timers.EditRebalanceNeverRejected` | src/routes/timers.js:140-143 | under the ledger, an edit of a timer whose owner exists succeeds exactly when the patched timer is valid: the rebalanced points cannot fall below zero |
| `Timers.DeleteThenCreateRestoresBalance` | src/routes/timers.js:157-176 | deleting a timer and recording the same session again returns its user to the balance it started with |
| `Timers.CreateThenDeleteRestores` | src/routes/timers.js:75-113 | recording a session and deleting it gives the store back, except for the used id |
| `Timers.EditKeepsOwnerOffset` | src/routes/timers.js:140-143 | one edit keeps the owner's `points - earnedPoints` of that timer fixed |
| `Timers.EditAllNetEffect` | src/routes/timers.js:116-154 | after any sequence of edits of one timer, its owner holds the starting balance minus the original earned points plus the final ones |
| `Users.Create` | src/routes/users.js:29-40 | the balance starts at `body.points`, or 0 when it is absent; the request succeeds exactly when that is not negative, and only then is a user stored under a fresh id |
| `Users.SetPoints` | src/routes/users.js:43-56 | a missing user gives NotFound and a negative value fails validation, both without effect; otherwise the balance is overwritten with the value |
| `Users.AddPoints` | src/routes/users.js:59-72 | succeeds exactly when the user exists and the sum is not negative; the balance then moves by the amount, and an absent amount changes nothing |
| `Users.Delete` | src/routes/users.js:75-87 | only that user goes; timers naming it stay |
| `Users.CreateKeepsLedgerIff` | src/routes/users.js:29-40 | a new user keeps the ledger exactly when it starts at zero points |
| `Users.SetPointsKeepsLedgerIff` | src/routes/users.js:43-56 | overwriting a balance keeps the ledger exactly when the value is unchanged |
| `Users.AddPointsKeepsLedgerIff` | src/routes/users.js:59-72 | adding points keeps the ledger exactly when the amount is zero or absent |
| `Users.DeleteKeepsLedger` | src/routes/users.js:75-87 | deleting a user keeps the ledger for every user left |
| `Users.CreateThenDeleteRestores` | src/routes/users.js:75-87 | creating a user and deleting it gives the store back, except for the used id |
| `Users.SetPointsLastWins` | src/routes/users.js:50-51 | of two successful overwrites, the last one decides the balance |
| `Users.AddPointsAccumulates` | src/routes/users.js:66-67 | two successful additions equal one addition of their sum |
| `Studies.Create` | src/routes/studies.js:33-47 | succeeds exactly when the title is non-empty; `bg` falls back to `#ffffff`; the study has no password and empty child arrays; nothing else changes |
| `Studies.Patch` | src/routes/studies.js:50-67 | title and `bg` change only to non-empty values, description whenever given (even to ""); every other field stays |
| `Studies.Delete` | src/routes/studies.js:70-88 | the study goes with exactly the habits and emoji counters that name it; the rest are kept unchanged, and no habit or counter left names the study |
| `Studies.DeleteKeepsLedger` | src/routes/studies.js:77-82 | deleting a study touches no timer and no balance, so the ledger survives it |
| `Studies.PatchIdempotent` | src/routes/studies.js:57-62 | patching a study twice with one body is patching it once |
| `Studies.CreateThenDeleteRestores` | src/routes/studies.js:70-88 | when no habit or emoji counter already names the id the new study gets (`/react` can create such a counter for an unknown study), creating a study and deleting it gives the store back, except for the used id |
| `Habits.Create` | src/routes/habits.js:40-64 | a missing study gives NotFound; an empty title is rejected; on success the habit is stored as checked only when the body says `true`, with no ticked days, and its id is appended to its study's array only |
| `Habits.Flip` | src/routes/habits.js:92-95 | flipping a day negates its reading (absent reads false) and keeps every other day's entry |
| `Habits.Toggle` | src/routes/habits.js:83-105 | a missing or empty day is a BadRequest before any lookup; a missing habit is NotFound; otherwise exactly that weekday of that habit flips, the reply is the flipped habit, and nothing else changes |
| `Habits.ToggleTwiceRestores` | src/routes/habits.js:92-99 | toggling the same day twice gives every weekday its original reading back |
| `Habits.Patch` | src/routes/habits.js:108-123 | the title changes only to a non-empty value, `checked` whenever given; every other field stays |
| `Habits.PatchIdempotent` | src/routes/habits.js:115-118 | patching a habit twice with one body is patching it once |
| `Habits.Delete` | src/routes/habits.js:126-143 | the habit goes and its study's array becomes the `$pull` of its id: the id is gone and the other ids stay in order; a missing study is skipped |
| `Habits.CreateThenDeleteRestores` | src/routes/habits.js:126-143 | creating a habit and deleting it gives the store back, study array included, except for the used id |
| `Habits.Populate` | src/routes/habits.js:150 | population returns at most one habit per id: all of them, in array order, when every id resolves, and nothing when none does |
| `Habits.PopulateDrawsFromIds` | src/routes/habits.js:150 | population invents nothing: every habit returned is the habit of some id of the array that resolves |
| `Habits.PopulateConcat` | src/routes/habits.js:150 | population works id by id: populating a concatenation concatenates the halves |
| `Habits.Today` | src/routes/habits.js:146-163 | NotFound for a missing study, and Unauthorized exactly when the password differs; otherwise the study's id array populated, which is the habits at those ids in order when all of them resolve |
| `Habits.Replacements` | src/routes/habits.js:202-208 | one new habit per non-empty title, under that title's id, unchecked and tied to the study |
| `Habits.ReplaceAll` | src/routes/habits.js:185-217 | NotFound for a missing study; otherwise the study's habits are deleted first; an absent list then throws; an empty title fails after the others were saved; success exactly when every title is non-empty |
| `Habits.ReplaceAllKeepsOtherStudies` | src/routes/habits.js:198-199 | a replacement never touches another study's habits |
| `Habits.ReplaceAllListsTitles` | src/routes/habits.js:202-211 | after a successful replacement, the study's habits are exactly the ids in its array, the i-th being a fresh habit titled with the i-th title |
| `Habits.FreshListing` | src/routes/habits.js:199-210 | the kept habits plus the new ones name the study exactly at the new array's ids |
| `Habits.ReplaceAllKeepsWf` | src/routes/habits.js:185-217 | a replacement keeps the store invariant on every outcome |
| `Habits.TodayAfterReplaceAll` | src/routes/habits.js:146-163 | after a successful replacement, the habit list shows exactly one new habit per title, in title order |
| `Habits.TodayOnNewStudy` | src/routes/habits.js:155-159 | a new study has no password, so its list opens exactly for a body without one, and it is empty |
| `Habits.ResetAll` | src/routes/habits.js:220-227 | the nightly reset empties every habit's weekday map and changes nothing else |
| `Habits.ResetIdempotent` | src/routes/habits.js:222 | resetting twice is resetting once |
| `Habits.ResetClearsEveryDay` | src/routes/habits.js:222 | after the reset no weekday of any habit reads as ticked |
| `Emojis.Numeral` | src/routes/emojis.js:111 | `String(n)` of a natural number below 10^21 is a non-empty string of digits ending in its last digit |
| `Emojis.Decimal` | src/routes/emojis.js:111 | `String(n)` below 10^21 in magnitude starts with `-` exactly for negative numbers |
| `Emojis.NumeralInjective` | src/routes/emojis.js:111 | distinct natural numbers have distinct numerals |
| `Emojis.DecimalInjective` | src/routes/emojis.js:111 | distinct numbers never share one reaction key |
| `Emojis.NumeralSpells` | src/routes/emojis.js:111 | the numeral of a natural number reads back as that number in decimal, with no leading zero |
| `Emojis.DecimalSpells` | src/routes/emojis.js:111 | `String(n)` is the decimal digits of n with no leading zero, and for a negative n a `-` followed by the digits of its magnitude |
| `Emojis.FirstMatch` | src/routes/emojis.js:77 | the least id in a range whose counter belongs to the pair, or none in that range |
| `Emojis.Find` | src/routes/emojis.js:77 | `findOne` on the pair returns a matching counter with no earlier match, and reports none only when no counter matches |
| `Emojis.FindDependsOnMatchesOnly` | src/routes/emojis.js:116-119 | the lookup only depends on which ids match the pair |
| `Emojis.Create` | src/routes/emojis.js:41-65 | a missing study gives NotFound and an empty emoji is rejected; on success the counter starts at 0 and its id is appended to its study's array; no duplicate check |
| `Emojis.React` | src/routes/emojis.js:106-127 | always succeeds: the pair's earliest counter moves by the step and keeps its other fields, or a new unchecked counter is created at the step; the reply is that counter; studies are neither checked nor updated; other counters stay |
| `Emojis.ReactShiftsTally` | src/routes/emojis.js:116-119 | one reaction moves the pair's count by exactly its step |
| `Emojis.ReactAllAddsUp` | src/routes/emojis.js:106-127 | a run of reactions ends at the start count plus increases minus other actions, in any order |
| `Emojis.DecreaseOnFreshPairGoesNegative` | src/routes/emojis.js:113-119 | no clamp: a decrease on a new pair gives -1, and increase, increase, decrease gives 1 |
| `Emojis.ReactKeepsPairsUnique` | src/routes/emojis.js:116-119 | a reaction never creates a second counter for a pair |
| `Emojis.Add` | src/routes/emojis.js:68-103 | any action other than "increase" changes nothing; an increase bumps the pair's counter or creates it at 1 and appends it to the study; for a missing study it throws after the counter was saved; an empty emoji fails with no change |
| `Emojis.AddIncreaseShiftsTally` | src/routes/emojis.js:77-94 | an increase through `/add` moves the pair's count up by one, even when it fails on a missing study |
| `Emojis.AddKeepsPairsUnique` | src/routes/emojis.js:75-94 | `/add` never creates a second counter for a pair |
| `Emojis.Patch` | src/routes/emojis.js:130-145 | the emoji changes only to a non-empty value, `checked` whenever given; every other field stays; it succeeds exactly when the counter exists and ends with a non-empty emoji, so a counter `/react` stored as "" is repaired by a non-empty patch |
| `Emojis.PatchIdempotent` | src/routes/emojis.js:137-140 | patching a counter twice with one body is patching it once |
| `Emojis.Delete` | src/routes/emojis.js:148-165 | the counter goes and its study's array becomes the `$pull` of its id: the id is gone and the other ids stay in order; a missing study is skipped |
| `Emojis.CreateThenDeleteRestores` | src/routes/emojis.js:148-165 | creating a counter and deleting it gives the store back, study array included, except for the used id |

## Left out

- Read-only routes (`GET` lists and lookups) are not modelled, and neither is the
  `/stats/user/:userId` aggregation. The aggregation also uses `mongoose` without
  importing it.
- Server bootstrap, CORS, the database connection, the midnight scheduler that calls the
  reset, and the background-theme list are not modelled. `src/config/bgThemes.js` is not
  part of this model.
- Concurrency is not modelled: each handler runs atomically. The read-modify-write
  interleavings of the timer and `/add` routes, and the lost updates they allow, are out
  of scope.
- Numbers are modelled as unbounded integers. JavaScript floating point, `NaN` (for
  example an absent `duration`) and fractional seconds are not modelled.
- `Emojis.Decimal`: spells every integer in plain digits. JavaScript's `String(n)` does
  that only for magnitudes below 10^21 and uses exponent form (`"1e+21"`) above, so the
  numeral facts hold for emoji tokens below that bound only.
- `Emojis.Find`: `findOne` on a (study, emoji) pair is taken to return the counter with
  the smallest id, that is the earliest created. The database does not promise an order
  among duplicates, and `POST /emojis` can create duplicates because it never checks the
  pair. So when duplicates exist, which counter `/react` and `/add` move is this model's
  choice.
- `Emojis.Token`: a reaction's `emoji` is JSON text, a number or absent. JSON `null` and
  booleans, which `String` spells "null", "true" and "false", are not modelled.
- Mongoose's strict mode is not modelled. The routes write `Timer.userId`, `Emoji.count`
  and `Habit.checkedDays`, which the schemas do not declare, and the model keeps them as
  the routes use them.
- ObjectId casting is not modelled: a malformed id would throw a cast error. Ids are
  naturals handed out by a counter.
- `trim` on titles and descriptions is not modelled.
- Only the failure tag is modelled, not the exact HTTP status or the error message.
- `Users.SetPoints`: the body's `points` is taken as present. An absent value would unset
  the field, which is not modelled.
- `Emojis.Add`: a counter created through `POST /emojis` starts with `count` 0 here. In
  the route, `count += 1` on a missing field gives `NaN`.
- `Habits.Create`, `Emojis.Create`, `Emojis.Add` and `Habits.ReplaceAll`: these routes
  save the parent study again, and that save is modelled as always passing. Its only
  changed field is an id array, which has no validator. `Records.Wf` shows that every
  stored study already passed validation. Emoji counters are the exception, because
  `/react` stores them without validation, so their re-validation on save is modelled.
- `Habits.Populate`: populated habits are returned as the records, in array order. The
  response's JSON shape is not modelled.

## Behaviour kept as the code has it

- Points are the linear `floor(duration / 60)`, with no bonus or cap.
- Reactions are never clamped, so a counter's count can go below zero.
- The nightly reset empties the whole weekday map of every habit.
- Deleting a study leaves its timers, and the points they credited, in place.
- Deleting a timer never clamps a balance at zero. A balance that would go negative
  fails the user schema's `min: 0`, and the timer stays.

=== FILE: common.dfy ===
/** Identifiers, optional request fields, JavaScript truthiness and handler outcomes
    shared by every route module. */
module Common {

  /** A document id. The database hands them out uniquely; the store models that with a counter. */
  type Id = nat

  /** A request-body field that may be absent (`undefined` in the handler). */
  datatype Option<+T> = None | Some(value: T)

  /** How a handler fails. `InternalError` stands for a handler that threw, typically by
      dereferencing a document the lookup did not find. */
  datatype Failure = NotFound | BadRequest | ValidationFailed | Unauthorized | InternalError

  /** The tagged outcome of one request. */
  datatype Result<+T> = Ok(value: T) | Err(failure: Failure)

  /** `if (body.x)` on a string field: present and non-empty. */
  predicate Truthy(field: Option<string>) {
    field.Some? && field.value != ""
  }

  /** `body.x || fallback` on a string field. */
  function TextOr(field: Option<string>, fallback: string): (r: string)
    ensures Truthy(field) ==> r == field.value
    ensures !Truthy(field) ==> r == fallback
  {
    if Truthy(field) then field.value else fallback
  }

  /** `body.x || 0` on a numeric field: an absent field (and 0 itself) reads as 0. */
  function NumberOrZero(field: Option<int>): (r: int)
    ensures field.None? ==> r == 0
    ensures field.Some? ==> r == field.value
  {
    if field.Some? then field.value else 0
  }

  /** `body.checked || false`: only an explicit `true` yields true. */
  function FlagOrFalse(field: Option<bool>): (r: bool)
    ensures r <==> field == Some(true)
  {
    field.Some? && field.value
  }

  /** The required-string value a model field receives: an absent field is stored as the
      empty string, which the schema's `required` validator rejects just like `undefined`. */
  function RequiredText(field: Option<string>): (r: string)
    ensures r == "" <==> !Truthy(field)
  {
    if field.Some? then field.value else ""
  }

  /** Every id in `ids` was handed out before `bound`. */
  predicate Below(ids: seq<Id>, bound: Id) {
    forall k :: 0 <= k < |ids| ==> ids[k] < bound
  }

  /** `$pull`: remove every occurrence of `x`, keeping the order of the rest. */
  function Pull(xs: seq<Id>, x: Id): (r: seq<Id>)
    ensures x !in r
    ensures forall y :: y != x ==> multiset(r)[y] == multiset(xs)[y]
    ensures |r| <= |xs|
    ensures x !in xs ==> r == xs
  {
    if xs == [] then []
    else
      var rest := Pull(xs[1..], x);
      assert xs == [xs[0]] + xs[1..];
      if xs[0] == x then rest else [xs[0]] + rest
  }

  /** Pulling an id that was just appended, and that occurred nowhere before, gives the
      array back: `push` followed by `$pull` is the identity. */
  lemma {:induction false} PullAppended(xs: seq<Id>, x: Id)
    requires x !in xs
    ensures Pull(xs + [x], x) == xs
  {
    if xs == [] {
      assert Pull([x], x) == Pull([], x);
    } else {
      assert (xs + [x])[1..] == xs[1..] + [x];
      PullAppended(xs[1..], x);
    }
  }

  /** `$pull` works element by element and keeps the order of what it keeps: pulling from a
      concatenation is concatenating the pulled halves. With `x !in r` and the unchanged
      arrays above, this pins `$pull` down completely. */
  lemma {:induction false} PullConcat(a: seq<Id>, b: seq<Id>, x: Id)
    ensures Pull(a + b, x) == Pull(a, x) + Pull(b, x)
    decreases |a|
  {
    if a == [] {
      assert a + b == b;
    } else {
      assert (a + b)[0] == a[0];
      assert (a + b)[1..] == a[1..] + b;
      PullConcat(a[1..], b, x);
    }
  }

  /** `$pull` only removes, so ids handed out before a bound stay so. */
  lemma {:induction false} PullBelow(xs: seq<Id>, x: Id, bound: Id)
    ensures Below(xs, bound) ==> Below(Pull(xs, x), bound)
    decreases |xs|
  {
    if xs != [] {
      PullBelow(xs[1..], x, bound);
    }
  }
}

=== FILE: emojis.dfy ===
/** The emoji routes: plain creation, the two reaction counters keyed by (study, token),
    patching and deletion. */
module Emojis {
  import opened Common
  import opened Records

  // Token normalisation.

  /** The `emoji` value of a reaction body: JSON text, a JSON number, or absent. */
  datatype Token = Text(text: string) | Number(n: int) | Absent

  function Digit(d: nat): (c: char)
    requires d < 10
    ensures '0' <= c <= '9'
    ensures c as int - '0' as int == d
  {
    ('0' as int + d) as char
  }

  /** The decimal numeral of a natural number, without leading zeros. */
  function Numeral(n: nat): (r: string)
    ensures |r| >= 1 && (n >= 10 ==> |r| >= 2)
    ensures forall i :: 0 <= i < |r| ==> '0' <= r[i] <= '9'
    ensures r[|r| - 1] == Digit(n % 10)
    decreases n
  {
    if n < 10 then [Digit(n)] else Numeral(n / 10) + [Digit(n % 10)]
  }

  /** `String(x)` for an integer `x`. */
  function Decimal(n: int): (r: string)
    ensures |r| >= 1
    ensures n < 0 <==> r[0] == '-'
  {
    if n < 0 then "-" + Numeral(-n) else Numeral(n)
  }

  /** `String(emoji)`: numbers are spelled in decimal, an absent value becomes "undefined". */
  function Normalize(t: Token): (r: string)
    ensures t.Text? ==> r == t.text
    ensures t.Number? ==> r == Decimal(t.n)
    ensures t.Absent? ==> r == "undefined"
  {
    match t
    case Text(s) => s
    case Number(n) => Decimal(n)
    case Absent => "undefined"
  }

  /** The number a string of decimal digits spells, most significant digit first. */
  function Value(s: string): int
    decreases |s|
  {
    if s == [] then 0 else 10 * Value(s[..|s| - 1]) + (s[|s| - 1] as int - '0' as int)
  }

  /** `Numeral(n)` spells `n` and has no leading zero, which makes it `String(n)`. */
  lemma {:induction false} NumeralSpells(n: nat)
    ensures Value(Numeral(n)) == n
    ensures |Numeral(n)| >= 2 ==> Numeral(n)[0] != '0'
    decreases n
  {
    var r := Numeral(n);
    if n < 10 {
      assert r == [Digit(n)];
      assert r[..0] == [];
    } else {
      NumeralSpells(n / 10);
      assert r[..|r| - 1] == Numeral(n / 10);
      assert r[0] == Numeral(n / 10)[0];
      if |Numeral(n / 10)| < 2 {
        assert Numeral(n / 10) == [Digit(n / 10)];
      }
    }
  }

  /** `Decimal(n)` spells `n`: the digits of a non-negative number, or a minus sign followed
      by the digits of its magnitude; the digits never start with a redundant zero. */
  lemma DecimalSpells(n: int)
    ensures n >= 0 ==> Value(Decimal(n)) == n && (|Decimal(n)| >= 2 ==> Decimal(n)[0] != '0')
    ensures n < 0 ==>
      && |Decimal(n)| >= 2 && Decimal(n)[0] == '-'
      && Value(Decimal(n)[1..]) == -n
      && (|Decimal(n)| >= 3 ==> Decimal(n)[1] != '0')
  {
    if n < 0 {
      NumeralSpells(-n);
      assert Decimal(n)[1..] == Numeral(-n);
    } else {
      NumeralSpells(n);
    }
  }

  lemma {:induction false} NumeralInjective(a: nat, b: nat)
    requires Numeral(a) == Numeral(b)
    ensures a == b
    decreases a
  {
    var ra, rb := Numeral(a), Numeral(b);
    assert Digit(a % 10) == Digit(b % 10);
    if a >= 10 && b >= 10 {
      assert ra[..|ra| - 1] == Numeral(a / 10);
      assert rb[..|rb| - 1] == Numeral(b / 10);
      NumeralInjective(a / 10, b / 10);
    }
  }

  /** Distinct numbers never collapse onto one reaction key. */
  lemma DecimalInjective(a: int, b: int)
    requires Decimal(a) == Decimal(b)
    ensures a == b
  {
    if a < 0 {
      assert Numeral(-a) == Decimal(a)[1..];
      assert Numeral(-b) == Decimal(b)[1..];
      NumeralInjective(-a, -b);
    } else {
      NumeralInjective(a, b);
    }
  }

  // Looking a (study, token) pair up.

  /** Counter `id` exists and belongs to the pair. */
  predicate Matches(m: map<Id, Emoji>, id: Id, studyId: Id, token: string) {
    id in m && m[id].studyId == studyId && m[id].emoji == token
  }

  /** The first matching id in `[from, bound)`, ids being handed out in insertion order. */
  function FirstMatch(m: map<Id, Emoji>, studyId: Id, token: string, from: nat, bound: nat): (r: Option<Id>)
    ensures r.Some? ==>
      && from <= r.value < bound && Matches(m, r.value, studyId, token)
      && forall j :: from <= j < r.value ==> !Matches(m, j, studyId, token)
    ensures r.None? ==> forall j :: from <= j < bound ==> !Matches(m, j, studyId, token)
    decreases bound - from
  {
    if from >= bound then None
    else if Matches(m, from, studyId, token) then Some(from)
    else FirstMatch(m, studyId, token, from + 1, bound)
  }

  /** `Emoji.findOne({ studyId, emoji })`: the earliest-created counter of the pair. */
  function Find(s: Store, studyId: Id, token: string): (r: Option<Id>)
    ensures r.Some? ==> Matches(s.emojis, r.value, studyId, token)
    ensures r.Some? ==> forall j: Id :: j < r.value ==> !Matches(s.emojis, j, studyId, token)
    ensures Wf(s) && r.None? ==> forall j :: !Matches(s.emojis, j, studyId, token)
  {
    FirstMatch(s.emojis, studyId, token, 0, s.nextId)
  }

  /** Two stores whose counters agree on which ids match the pair give the same answer. */
  lemma FindDependsOnMatchesOnly(s: Store, t: Store, studyId: Id, token: string)
    requires s.nextId <= t.nextId
    requires forall j: Id :: j < s.nextId ==> (Matches(s.emojis, j, studyId, token) <==> Matches(t.emojis, j, studyId, token))
    requires forall j :: s.nextId <= j < t.nextId ==> !Matches(t.emojis, j, studyId, token)
    ensures Find(s, studyId, token) == Find(t, studyId, token)
  {
    var a, b := Find(s, studyId, token), Find(t, studyId, token);
    if a.Some? && b.Some? {
      assert !(a.value < b.value) && !(b.value < a.value);
    }
  }

  /** The count a client reads for the pair: the first counter's, or 0 when there is none. */
  function Tally(s: Store, studyId: Id, token: string): (r: int)
    ensures Find(s, studyId, token).None? ==> r == 0
  {
    match Find(s, studyId, token)
    case Some(id) => s.emojis[id].count
    case None => 0
  }

  /** At most one counter per (study, token) pair. */
  ghost predicate UniquePairs(m: map<Id, Emoji>) {
    forall a, b :: a in m && b in m && m[a].studyId == m[b].studyId && m[a].emoji == m[b].emoji ==> a == b
  }

  // The routes.

  /** Body of `POST /emojis`. */
  datatype NewEmoji = NewEmoji(studyId: Id, emoji: Option<string>, checked: Option<bool>)

  /** Body of `PATCH /emojis/:id`. */
  datatype EmojiPatch = EmojiPatch(emoji: Option<string>, checked: Option<bool>)

  /** `POST /emojis`: the study must exist; the new counter's id goes to the end of the
      study's `emojis` array. Nothing checks whether the pair already has a counter. */
  function Create(s: Store, req: NewEmoji): (r: Reply<Emoji>)
    ensures req.studyId !in s.studies ==> r == Reply(s, Err(NotFound))
    ensures r.result.Ok? <==> req.studyId in s.studies && Truthy(req.emoji)
    ensures r.result.Err? ==> r.store == s
    ensures r.result.Ok? ==>
      && r.result.value == Emoji(req.emoji.value, FlagOrFalse(req.checked), req.studyId, 0)
      && r.store.emojis == s.emojis[s.nextId := r.result.value]
      && r.store.studies.Keys == s.studies.Keys
      && r.store.studies[req.studyId].emojis == s.studies[req.studyId].emojis + [s.nextId]
      && r.store.studies[req.studyId].(emojis := s.studies[req.studyId].emojis) == s.studies[req.studyId]
      && (forall st :: st in s.studies && st != req.studyId ==> r.store.studies[st] == s.studies[st])
    ensures r.store.users == s.users && r.store.timers == s.timers && r.store.habits == s.habits
    ensures Wf(s) ==> Wf(r.store)
  {
    if req.studyId !in s.studies then Reply(s, Err(NotFound))
    else
      var emoji := Emoji(RequiredText(req.emoji), FlagOrFalse(req.checked), req.studyId, 0);
      if !ValidEmoji(emoji) then Reply(s, Err(ValidationFailed))
      else
        var study := s.studies[req.studyId];
        Reply(s.(emojis := s.emojis[s.nextId := emoji],
                 studies := s.studies[req.studyId := study.(emojis := study.emojis + [s.nextId])],
                 nextId := s.nextId + 1),
              Ok(emoji))
  }

  /** The step a reaction applies: +1 for "increase", -1 for any other action. */
  function Step(action: string): (d: int)
    ensures action == "increase" ==> d == 1
    ensures action != "increase" ==> d == -1
  {
    if action == "increase" then 1 else -1
  }

  /** `POST /emojis/react`: an upsert with `$inc` on the pair. The study is neither checked
      nor updated, and the count is never clamped. */
  function React(s: Store, studyId: Id, token: Token, action: string): (r: Reply<Emoji>)
    ensures r.result.Ok?
    ensures r.result.value.studyId == studyId && r.result.value.emoji == Normalize(token)
    ensures var prior := Find(s, studyId, Normalize(token));
            && (prior.Some? ==>
                 && r.result.value == s.emojis[prior.value].(count := s.emojis[prior.value].count + Step(action))
                 && r.store.emojis == s.emojis[prior.value := r.result.value]
                 && r.store.nextId == s.nextId)
            && (prior.None? ==>
                 && r.result.value == Emoji(Normalize(token), false, studyId, Step(action))
                 && r.store.emojis == s.emojis[s.nextId := r.result.value]
                 && r.store.nextId == s.nextId + 1)
    ensures r.store.emojis.Keys >= s.emojis.Keys
    ensures Wf(s) ==> forall e :: e in s.emojis && !Matches(s.emojis, e, studyId, Normalize(token)) ==> r.store.emojis[e] == s.emojis[e]
    ensures r.store.studies == s.studies && r.store.habits == s.habits
    ensures r.store.users == s.users && r.store.timers == s.timers
    ensures Wf(s) ==> Wf(r.store)
  {
    var key := Normalize(token);
    match Find(s, studyId, key)
    case Some(id) =>
      var emoji := s.emojis[id].(count := s.emojis[id].count + Step(action));
      Reply(s.(emojis := s.emojis[id := emoji]), Ok(emoji))
    case None =>
      var emoji := Emoji(key, false, studyId, Step(action));
      Reply(s.(emojis := s.emojis[s.nextId := emoji], nextId := s.nextId + 1), Ok(emoji))
  }

  /** One reaction moves the pair's count by exactly its step, from whatever it was. */
  lemma ReactShiftsTally(s: Store, studyId: Id, token: Token, action: string)
    requires Wf(s)
    ensures Tally(React(s, studyId, token, action).store, studyId, Normalize(token))
            == Tally(s, studyId, Normalize(token)) + Step(action)
  {
    var key := Normalize(token);
    var t := React(s, studyId, token, action).store;
    match Find(s, studyId, key)
    case Some(id) =>
      FindDependsOnMatchesOnly(s, t, studyId, key);
    case None =>
      var probe := Find(t, studyId, key);
      assert Matches(t.emojis, s.nextId, studyId, key);
      assert probe == Some(s.nextId) by {
        assert forall j: Id :: j < s.nextId ==> !Matches(t.emojis, j, studyId, key);
      }
  }

  /** The store after the reactions in `actions`, one after another. */
  function ReactAll(s: Store, studyId: Id, token: Token, actions: seq<string>): Store
    decreases |actions|
  {
    if actions == [] then s
    else ReactAll(React(s, studyId, token, actions[0]).store, studyId, token, actions[1..])
  }

  /** The net effect of a list of reactions: increases minus everything else. */
  function Net(actions: seq<string>): int
    decreases |actions|
  {
    if actions == [] then 0 else Step(actions[0]) + Net(actions[1..])
  }

  /** Reactions only add up: the count ends at its start plus the number of increases minus
      the number of other actions, in any order, and can go below zero. */
  lemma {:induction false} ReactAllAddsUp(s: Store, studyId: Id, token: Token, actions: seq<string>)
    requires Wf(s)
    ensures Tally(ReactAll(s, studyId, token, actions), studyId, Normalize(token))
            == Tally(s, studyId, Normalize(token)) + Net(actions)
    decreases |actions|
  {
    if actions != [] {
      ReactShiftsTally(s, studyId, token, actions[0]);
      ReactAllAddsUp(React(s, studyId, token, actions[0]).store, studyId, token, actions[1..]);
    }
  }

  /** Nothing stops a counter at zero: decreasing a pair that has no counter yet creates one
      at -1, and "increase, increase, decrease" on a fresh pair leaves it at 1. */
  lemma DecreaseOnFreshPairGoesNegative(s: Store, studyId: Id, token: Token)
    requires Wf(s) && Find(s, studyId, Normalize(token)).None?
    ensures Tally(React(s, studyId, token, "decrease").store, studyId, Normalize(token)) == -1
    ensures Tally(ReactAll(s, studyId, token, ["increase", "increase", "decrease"]), studyId, Normalize(token)) == 1
  {
    ReactShiftsTally(s, studyId, token, "decrease");
    var actions := ["increase", "increase", "decrease"];
    ReactAllAddsUp(s, studyId, token, actions);
    assert actions[1..][1..][1..] == [];
  }

  /** A reaction never adds a second counter for its pair, so a store with one counter per
      pair keeps it. */
  lemma ReactKeepsPairsUnique(s: Store, studyId: Id, token: Token, action: string)
    requires Wf(s) && UniquePairs(s.emojis)
    ensures UniquePairs(React(s, studyId, token, action).store.emojis)
  {
    var key := Normalize(token);
    var t := React(s, studyId, token, action).store;
    if Find(s, studyId, key).None? {
      assert t.emojis == s.emojis[s.nextId := Emoji(key, false, studyId, Step(action))];
      assert forall e :: e in s.emojis ==> !Matches(s.emojis, e, studyId, key);
    }
  }

  /** The counters of a study a client sees: those with a positive count. */
  function Active(m: map<Id, Emoji>, studyId: Id): (r: map<Id, Emoji>)
    ensures forall e :: e in r <==> e in m && m[e].studyId == studyId && m[e].count > 0
    ensures forall e :: e in r ==> r[e] == m[e]
  {
    map e | e in m && m[e].studyId == studyId && m[e].count > 0 :: m[e]
  }

  /** `POST /emojis/add`: "increase" adds one to the pair's counter, or creates it at 1 and
      appends it to the study's array; any other action changes nothing. The study is looked
      up but not checked, so creating a counter for a missing study throws after the counter
      was saved. Every save re-validates the whole counter, so an empty emoji (which only the
      react route can store) makes the route fail. The answer is the study's counters with a
      positive count. */
  function Add(s: Store, studyId: Id, token: Token, action: string): (r: Reply<map<Id, Emoji>>)
    ensures action != "increase" ==> r == Reply(s, Ok(Active(s.emojis, studyId)))
    ensures r.result.Ok? ==> r.result.value == Active(r.store.emojis, studyId)
    ensures var prior := Find(s, studyId, Normalize(token));
            action == "increase" && prior.Some? && Normalize(token) != "" ==>
              && r.result.Ok?
              && r.store.emojis == s.emojis[prior.value := s.emojis[prior.value].(count := s.emojis[prior.value].count + 1)]
              && r.store.studies == s.studies && r.store.nextId == s.nextId
    ensures var prior := Find(s, studyId, Normalize(token));
            action == "increase" && prior.None? && Normalize(token) != "" ==>
              && r.store.emojis == s.emojis[s.nextId := Emoji(Normalize(token), false, studyId, 1)]
              && r.store.nextId == s.nextId + 1
              && (studyId in s.studies ==>
                    && r.result.Ok?
                    && r.store.studies == s.studies[studyId := s.studies[studyId].(emojis := s.studies[studyId].emojis + [s.nextId])])
              && (studyId !in s.studies ==> r.result == Err(InternalError) && r.store.studies == s.studies)
    ensures action == "increase" && Normalize(token) == "" ==> r == Reply(s, Err(InternalError))
    ensures r.store.users == s.users && r.store.timers == s.timers && r.store.habits == s.habits
    ensures Wf(s) ==> Wf(r.store)
  {
    var key := Normalize(token);
    if action != "increase" then Reply(s, Ok(Active(s.emojis, studyId)))
    else
      match Find(s, studyId, key)
      case Some(id) =>
        var bumped := s.emojis[id].(count := s.emojis[id].count + 1);
        if !ValidEmoji(bumped) then Reply(s, Err(InternalError))
        else
          var emojis := s.emojis[id := bumped];
          Reply(s.(emojis := emojis), Ok(Active(emojis, studyId)))
      case None =>
        var emoji := Emoji(key, false, studyId, 1);
        if !ValidEmoji(emoji) then Reply(s, Err(InternalError))
        else
          var saved := s.(emojis := s.emojis[s.nextId := emoji], nextId := s.nextId + 1);
          if studyId !in s.studies then Reply(saved, Err(InternalError))
          else
            var study := s.studies[studyId];
            var done := saved.(studies := s.studies[studyId := study.(emojis := study.emojis + [s.nextId])]);
            Reply(done, Ok(Active(done.emojis, studyId)))
  }

  /** The add route never adds a second counter for its pair either. */
  lemma AddKeepsPairsUnique(s: Store, studyId: Id, token: Token, action: string)
    requires Wf(s) && UniquePairs(s.emojis)
    ensures UniquePairs(Add(s, studyId, token, action).store.emojis)
  {
    var key := Normalize(token);
    var t := Add(s, studyId, token, action).store;
    if action == "increase" && Find(s, studyId, key).None? && key != "" {
      assert forall j :: !Matches(s.emojis, j, studyId, key);
      assert t.emojis == s.emojis[s.nextId := Emoji(key, false, studyId, 1)];
      assert forall e :: e in s.emojis ==> !Matches(s.emojis, e, studyId, key);
    }
  }

  /** An increase through the add route moves the pair's count up by one, whether or not it
      then fails on a missing study. */
  lemma AddIncreaseShiftsTally(s: Store, studyId: Id, token: Token)
    requires Wf(s) && Normalize(token) != ""
    ensures Tally(Add(s, studyId, token, "increase").store, studyId, Normalize(token))
            == Tally(s, studyId, Normalize(token)) + 1
  {
    var key := Normalize(token);
    var t := Add(s, studyId, token, "increase").store;
    match Find(s, studyId, key)
    case Some(id) =>
      FindDependsOnMatchesOnly(s, t, studyId, key);
    case None =>
      assert forall j :: !Matches(s.emojis, j, studyId, key);
      assert t.emojis == s.emojis[s.nextId := Emoji(key, false, studyId, 1)];
      var probe := Find(t, studyId, key);
      assert Matches(t.emojis, s.nextId, studyId, key);
      forall j: Id | j < s.nextId
        ensures !Matches(t.emojis, j, studyId, key)
      {
        assert !Matches(s.emojis, j, studyId, key);
      }
      assert probe == Some(s.nextId);
  }

  /** `PATCH /emojis/:id`: the token changes only to a non-empty value, `checked` whenever it
      is given. */
  function Patch(s: Store, id: Id, p: EmojiPatch): (r: Reply<Emoji>)
    ensures id !in s.emojis ==> r == Reply(s, Err(NotFound))
    ensures id in s.emojis && ValidEmoji(s.emojis[id]) ==> r.result.Ok?
    ensures r.result.Ok? <==> id in s.emojis && (Truthy(p.emoji) || s.emojis[id].emoji != "")
    ensures r.result.Err? ==> r.store == s
    ensures r.result.Ok? ==>
      && id in s.emojis
      && r.result.value.emoji == (if Truthy(p.emoji) then p.emoji.value else s.emojis[id].emoji)
      && r.result.value.checked == (if p.checked.Some? then p.checked.value else s.emojis[id].checked)
      && r.result.value.(emoji := s.emojis[id].emoji, checked := s.emojis[id].checked) == s.emojis[id]
      && r.store == s.(emojis := s.emojis[id := r.result.value])
    ensures Wf(s) ==> Wf(r.store)
  {
    if id !in s.emojis then Reply(s, Err(NotFound))
    else
      var before := s.emojis[id];
      var emoji := before.(
        emoji := TextOr(p.emoji, before.emoji),
        checked := if p.checked.Some? then p.checked.value else before.checked);
      if !ValidEmoji(emoji) then Reply(s, Err(ValidationFailed))
      else Reply(s.(emojis := s.emojis[id := emoji]), Ok(emoji))
  }

  /** `DELETE /emojis/:id`: every occurrence of the id leaves the owning study's array (a
      missing study is skipped), then the counter goes. */
  function Delete(s: Store, id: Id): (r: Reply<()>)
    ensures id !in s.emojis ==> r == Reply(s, Err(NotFound))
    ensures id in s.emojis ==> r.result.Ok?
    ensures r.result.Ok? ==>
      && r.store.emojis == s.emojis - {id}
      && r.store.studies.Keys == s.studies.Keys
      && var owner := s.emojis[id].studyId;
         && (owner in s.studies ==>
              && r.store.studies[owner].emojis == Pull(s.studies[owner].emojis, id)
              && id !in r.store.studies[owner].emojis
              && (forall e :: e != id ==>
                    multiset(r.store.studies[owner].emojis)[e] == multiset(s.studies[owner].emojis)[e])
              && r.store.studies[owner].(emojis := s.studies[owner].emojis) == s.studies[owner])
         && (forall st :: st in s.studies && st != owner ==> r.store.studies[st] == s.studies[st])
    ensures r.store.users == s.users && r.store.timers == s.timers && r.store.habits == s.habits
    ensures r.store.nextId == s.nextId
    ensures Wf(s) ==> Wf(r.store)
  {
    if id !in s.emojis then Reply(s, Err(NotFound))
    else
      var owner := s.emojis[id].studyId;
      var studies :=
        if owner in s.studies
        then
          var pulled := s.studies[owner].(emojis := Pull(s.studies[owner].emojis, id));
          PullBelow(s.studies[owner].emojis, id, s.nextId);
          PutStudyKeepsWf(s, owner, pulled);
          s.studies[owner := pulled]
        else s.studies;
      Reply(s.(studies := studies, emojis := s.emojis - {id}), Ok(()))
  }

  /** Patching a counter twice with the same body is patching it once. */
  lemma PatchIdempotent(s: Store, id: Id, p: EmojiPatch)
    requires Patch(s, id, p).result.Ok?
    ensures Patch(Patch(s, id, p).store, id, p) == Patch(s, id, p)
  {
  }

  /** Creating a counter and deleting it again leaves the store as it was, except that the
      id stays used. */
  lemma CreateThenDeleteRestores(s: Store, req: NewEmoji)
    requires Wf(s) && Create(s, req).result.Ok?
    ensures var r := Delete(Create(s, req).store, s.nextId);
            r.result.Ok? && r.store == s.(nextId := s.nextId + 1)
  {
    CreateThenDeleteKeepsStudies(s, req);
    assert s.nextId !in s.emojis;
  }

  /** The study half of `CreateThenDeleteRestores`: the appended id is pulled out again. */
  lemma CreateThenDeleteKeepsStudies(s: Store, req: NewEmoji)
    requires Wf(s) && Create(s, req).result.Ok?
    ensures Delete(Create(s, req).store, s.nextId).store.studies == s.studies
  {
    var study := s.studies[req.studyId];
    NextIdNotInArrays(s, req.studyId);
    PullAppended(study.emojis, s.nextId);
    var c := Create(s, req).store;
    assert c.emojis[s.nextId].studyId == req.studyId;
    var r := Delete(c, s.nextId);
    assert r.store.studies[req.studyId] == study;
    forall st | st in s.studies ensures r.store.studies[st] == s.studies[st] { }
  }
}

=== FILE: habits.dfy ===
/** The habit routes: creating, ticking per weekday, patching and deleting a habit, the
    password-gated habit list, bulk replacement of a study's habits, and the daily reset. */
module Habits {
  import opened Common
  import opened Records
  import Studies

  /** Body of `POST /habits`. */
  datatype NewHabit = NewHabit(studyId: Id, title: Option<string>, checked: Option<bool>)

  /** Body of `PATCH /habits/:id`. */
  datatype HabitPatch = HabitPatch(title: Option<string>, checked: Option<bool>)

  /** Whether `day` reads as ticked: an absent key reads as false. */
  predicate Ticked(days: map<string, bool>, day: string) {
    day in days && days[day]
  }

  /** `POST /habits`: the study must exist; the new habit's id goes to the end of the study's
      `habits` array and no other study changes. */
  function Create(s: Store, req: NewHabit): (r: Reply<Habit>)
    ensures req.studyId !in s.studies ==> r == Reply(s, Err(NotFound))
    ensures r.result.Ok? <==> req.studyId in s.studies && Truthy(req.title)
    ensures r.result.Err? ==> r.store == s
    ensures r.result.Ok? ==>
      && r.result.value == Habit(req.title.value, FlagOrFalse(req.checked), req.studyId, map[])
      && r.store.habits == s.habits[s.nextId := r.result.value]
      && r.store.studies.Keys == s.studies.Keys
      && r.store.studies[req.studyId].habits == s.studies[req.studyId].habits + [s.nextId]
      && r.store.studies[req.studyId].(habits := s.studies[req.studyId].habits) == s.studies[req.studyId]
      && (forall st :: st in s.studies && st != req.studyId ==> r.store.studies[st] == s.studies[st])
      && r.store.nextId == s.nextId + 1
    ensures r.store.users == s.users && r.store.timers == s.timers && r.store.emojis == s.emojis
    ensures Wf(s) ==> Wf(r.store)
  {
    if req.studyId !in s.studies then Reply(s, Err(NotFound))
    else
      var habit := Habit(RequiredText(req.title), FlagOrFalse(req.checked), req.studyId, map[]);
      if !ValidHabit(habit) then Reply(s, Err(ValidationFailed))
      else
        var study := s.studies[req.studyId];
        Reply(s.(habits := s.habits[s.nextId := habit],
                 studies := s.studies[req.studyId := study.(habits := study.habits + [s.nextId])],
                 nextId := s.nextId + 1),
              Ok(habit))
  }

  /** The weekday map after flipping `day`, reading an absent key as false. */
  function Flip(days: map<string, bool>, day: string): (r: map<string, bool>)
    ensures Ticked(r, day) == !Ticked(days, day)
    ensures r.Keys == days.Keys + {day}
    ensures forall k :: k in days && k != day ==> r[k] == days[k]
  {
    days[day := !Ticked(days, day)]
  }

  /** `PATCH /habits/:id/toggle`: a missing or empty `day` is refused before any lookup;
      otherwise exactly that weekday of that habit flips. */
  function Toggle(s: Store, id: Id, day: Option<string>): (r: Reply<Habit>)
    ensures !Truthy(day) ==> r == Reply(s, Err(BadRequest))
    ensures Truthy(day) && id !in s.habits ==> r == Reply(s, Err(NotFound))
    ensures r.result.Ok? <==> Truthy(day) && id in s.habits
    ensures r.result.Err? ==> r.store == s
    ensures r.result.Ok? ==>
      && r.result.value.checkedDays == Flip(s.habits[id].checkedDays, day.value)
      && Ticked(r.result.value.checkedDays, day.value) == !Ticked(s.habits[id].checkedDays, day.value)
      && (forall k :: k != day.value ==>
            Ticked(r.result.value.checkedDays, k) == Ticked(s.habits[id].checkedDays, k))
      && r.result.value.(checkedDays := s.habits[id].checkedDays) == s.habits[id]
      && r.store.habits.Keys == s.habits.Keys
      && r.store.habits[id] == r.result.value
      && (forall h :: h in s.habits && h != id ==> r.store.habits[h] == s.habits[h])
      && r.store.(habits := s.habits) == s
    ensures Wf(s) ==> Wf(r.store)
  {
    if !Truthy(day) then Reply(s, Err(BadRequest))
    else if id !in s.habits then Reply(s, Err(NotFound))
    else
      var habit := s.habits[id].(checkedDays := Flip(s.habits[id].checkedDays, day.value));
      Reply(s.(habits := s.habits[id := habit]), Ok(habit))
  }

  /** Toggling the same day twice gives every weekday its original reading back. */
  lemma ToggleTwiceRestores(s: Store, id: Id, day: Option<string>)
    requires Toggle(s, id, day).result.Ok?
    ensures var twice := Toggle(Toggle(s, id, day).store, id, day);
            && twice.result.Ok?
            && twice.store.habits.Keys == s.habits.Keys
            && (forall k :: Ticked(twice.store.habits[id].checkedDays, k) == Ticked(s.habits[id].checkedDays, k))
            && twice.store.habits[id].(checkedDays := s.habits[id].checkedDays) == s.habits[id]
            && (forall h :: h in s.habits && h != id ==> twice.store.habits[h] == s.habits[h])
  {
    var once := Toggle(s, id, day);
    var twice := Toggle(once.store, id, day);
    forall k
      ensures Ticked(twice.store.habits[id].checkedDays, k) == Ticked(s.habits[id].checkedDays, k)
    {
      if k != day.value {
        assert Ticked(twice.store.habits[id].checkedDays, k) == Ticked(once.store.habits[id].checkedDays, k);
      }
    }
  }

  /** `PATCH /habits/:id`: the title changes only to a non-empty value, `checked` whenever it
      is given. */
  function Patch(s: Store, id: Id, p: HabitPatch): (r: Reply<Habit>)
    ensures id !in s.habits ==> r == Reply(s, Err(NotFound))
    ensures id in s.habits && ValidHabit(s.habits[id]) ==> r.result.Ok?
    ensures r.result.Err? ==> r.store == s
    ensures r.result.Ok? ==>
      && id in s.habits
      && r.result.value.title == (if Truthy(p.title) then p.title.value else s.habits[id].title)
      && r.result.value.checked == (if p.checked.Some? then p.checked.value else s.habits[id].checked)
      && r.result.value.(title := s.habits[id].title, checked := s.habits[id].checked) == s.habits[id]
      && r.store == s.(habits := s.habits[id := r.result.value])
    ensures Wf(s) ==> Wf(r.store)
  {
    if id !in s.habits then Reply(s, Err(NotFound))
    else
      var before := s.habits[id];
      var habit := before.(
        title := TextOr(p.title, before.title),
        checked := if p.checked.Some? then p.checked.value else before.checked);
      if !ValidHabit(habit) then Reply(s, Err(ValidationFailed))
      else Reply(s.(habits := s.habits[id := habit]), Ok(habit))
  }

  /** `DELETE /habits/:id`: every occurrence of the id leaves the owning study's array (a
      missing study is skipped), then the habit goes. */
  function Delete(s: Store, id: Id): (r: Reply<()>)
    ensures id !in s.habits ==> r == Reply(s, Err(NotFound))
    ensures id in s.habits ==> r.result.Ok?
    ensures r.result.Ok? ==>
      && r.store.habits == s.habits - {id}
      && r.store.studies.Keys == s.studies.Keys
      && var owner := s.habits[id].studyId;
         && (owner in s.studies ==>
              && r.store.studies[owner].habits == Pull(s.studies[owner].habits, id)
              && id !in r.store.studies[owner].habits
              && (forall h :: h != id ==>
                    multiset(r.store.studies[owner].habits)[h] == multiset(s.studies[owner].habits)[h])
              && r.store.studies[owner].(habits := s.studies[owner].habits) == s.studies[owner])
         && (forall st :: st in s.studies && st != owner ==> r.store.studies[st] == s.studies[st])
    ensures r.store.users == s.users && r.store.timers == s.timers && r.store.emojis == s.emojis
    ensures r.store.nextId == s.nextId
    ensures Wf(s) ==> Wf(r.store)
  {
    if id !in s.habits then Reply(s, Err(NotFound))
    else
      var owner := s.habits[id].studyId;
      var studies :=
        if owner in s.studies
        then
          var pulled := s.studies[owner].(habits := Pull(s.studies[owner].habits, id));
          PullBelow(s.studies[owner].habits, id, s.nextId);
          PutStudyKeepsWf(s, owner, pulled);
          s.studies[owner := pulled]
        else s.studies;
      Reply(s.(studies := studies, habits := s.habits - {id}), Ok(()))
  }

  /** The habits an id array names, in array order; ids with no habit are dropped, as
      `populate` drops references that no longer resolve. Together with `PopulateConcat`
      the two cases below determine the result for every array. */
  function Populate(ids: seq<Id>, habits: map<Id, Habit>): (r: seq<Habit>)
    ensures |r| <= |ids|
    ensures (forall i :: 0 <= i < |ids| ==> ids[i] in habits) ==>
              |r| == |ids| && forall i :: 0 <= i < |ids| ==> r[i] == habits[ids[i]]
    ensures (forall i :: 0 <= i < |ids| ==> ids[i] !in habits) ==> r == []
    decreases |ids|
  {
    if ids == [] then []
    else
      var rest := Populate(ids[1..], habits);
      assert forall j :: 0 <= j < |ids[1..]| ==> ids[1..][j] == ids[j + 1];
      if ids[0] in habits then [habits[ids[0]]] + rest else rest
  }

  /** Population invents nothing: every habit it returns is the habit of some id of the
      array that resolves. */
  lemma {:induction false} PopulateDrawsFromIds(ids: seq<Id>, habits: map<Id, Habit>)
    ensures forall k :: 0 <= k < |Populate(ids, habits)| ==>
              exists j :: 0 <= j < |ids| && ids[j] in habits && Populate(ids, habits)[k] == habits[ids[j]]
    decreases |ids|
  {
    var r := Populate(ids, habits);
    if ids == [] {
      assert r == [];
    } else {
      var rest := Populate(ids[1..], habits);
      PopulateDrawsFromIds(ids[1..], habits);
      forall k | 0 <= k < |r|
        ensures exists j :: 0 <= j < |ids| && ids[j] in habits && r[k] == habits[ids[j]]
      {
        if ids[0] in habits && k == 0 {
          assert r[0] == habits[ids[0]];
        } else {
          var k' := if ids[0] in habits then k - 1 else k;
          assert r[k] == rest[k'];
          var j :| 0 <= j < |ids[1..]| && ids[1..][j] in habits && rest[k'] == habits[ids[1..][j]];
          assert ids[1..][j] == ids[j + 1];
        }
      }
    }
  }

  /** Population works id by id: populating a concatenation concatenates the halves. */
  lemma {:induction false} PopulateConcat(a: seq<Id>, b: seq<Id>, habits: map<Id, Habit>)
    ensures Populate(a + b, habits) == Populate(a, habits) + Populate(b, habits)
    decreases |a|
  {
    if a == [] {
      assert a + b == b;
    } else {
      assert (a + b)[0] == a[0];
      assert (a + b)[1..] == a[1..] + b;
      PopulateConcat(a[1..], b, habits);
    }
  }

  /** `POST /habits/today`: a missing study is NotFound, a different password is
      Unauthorized, and otherwise the study's habits come back, populated from its id
      array; nothing is written. */
  function Today(s: Store, studyId: Id, password: Option<string>): (r: Result<seq<Habit>>)
    ensures studyId !in s.studies ==> r == Err(NotFound)
    ensures studyId in s.studies && s.studies[studyId].password != password ==> r == Err(Unauthorized)
    ensures r.Ok? <==> studyId in s.studies && s.studies[studyId].password == password
    ensures r.Ok? ==>
      var ids := s.studies[studyId].habits;
      && r.value == Populate(ids, s.habits)
      && ((forall i :: 0 <= i < |ids| ==> ids[i] in s.habits) ==>
            |r.value| == |ids| && forall i :: 0 <= i < |ids| ==> r.value[i] == s.habits[ids[i]])
  {
    if studyId !in s.studies then Err(NotFound)
    else if s.studies[studyId].password != password then Err(Unauthorized)
    else Ok(Populate(s.studies[studyId].habits, s.habits))
  }

  /** The ids handed to `count` new habits, in order, starting at `first`. */
  function FreshIds(first: Id, count: nat): (r: seq<Id>)
    ensures |r| == count
    ensures forall i :: 0 <= i < count ==> r[i] == first + i
  {
    seq(count, i => first + i)
  }

  /** A habit as the schema defaults it: unchecked, with no weekday ticked. */
  function NewlyMade(title: string, studyId: Id): Habit {
    Habit(title, false, studyId, map[])
  }

  /** The habits a replacement request saves: one per non-empty title, the i-th title under
      id `first + i`; an empty title fails validation and is not saved. */
  function Replacements(titles: seq<string>, studyId: Id, first: Id): (r: map<Id, Habit>)
    ensures forall h :: h in r ==> first <= h < first + |titles| && ValidHabit(r[h]) && r[h].studyId == studyId
    ensures forall i :: 0 <= i < |titles| ==> (first + i in r <==> titles[i] != "")
    ensures forall i :: 0 <= i < |titles| && titles[i] != "" ==>
              r[first + i] == NewlyMade(titles[i], studyId)
    decreases |titles|
  {
    if titles == [] then map[]
    else
      var rest := Replacements(titles[1..], studyId, first + 1);
      assert forall i :: 1 <= i < |titles| ==> titles[i] == titles[1..][i - 1];
      if titles[0] == "" then rest else rest[first := NewlyMade(titles[0], studyId)]
  }

  /** The habits left after `deleteMany({ studyId })`: those of every other study. */
  function Kept(habits: map<Id, Habit>, studyId: Id): (r: map<Id, Habit>)
    ensures forall h :: h in r <==> h in habits && habits[h].studyId != studyId
    ensures forall h :: h in r ==> r[h] == habits[h]
  {
    map h | h in habits && habits[h].studyId != studyId :: habits[h]
  }

  /** `PATCH /habits/study/:studyId/habits`: every habit of the study is deleted, then one
      habit per title is saved and the study's array is set to their ids in title order. An
      absent title list throws after the deletion; an empty title fails its save after the
      others were saved, leaving the study's array as it was. */
  function ReplaceAll(s: Store, studyId: Id, titles: Option<seq<string>>): (r: Reply<()>)
    ensures studyId !in s.studies ==> r == Reply(s, Err(NotFound))
    ensures r.result.Ok? <==>
      studyId in s.studies && titles.Some? && forall i :: 0 <= i < |titles.value| ==> titles.value[i] != ""
    ensures studyId in s.studies && titles.None? ==>
      r == Reply(s.(habits := Kept(s.habits, studyId)), Err(InternalError))
    ensures studyId in s.studies && titles.Some? ==>
      && r.store.habits == Kept(s.habits, studyId) + Replacements(titles.value, studyId, s.nextId)
      && r.store.nextId == s.nextId + |titles.value|
    ensures r.result.Err? ==> r.store.studies == s.studies
    ensures r.result.Ok? ==>
      && r.store.studies.Keys == s.studies.Keys
      && r.store.studies[studyId].habits == FreshIds(s.nextId, |titles.value|)
      && r.store.studies[studyId].(habits := s.studies[studyId].habits) == s.studies[studyId]
      && (forall st :: st in s.studies && st != studyId ==> r.store.studies[st] == s.studies[st])
    ensures r.store.users == s.users && r.store.timers == s.timers && r.store.emojis == s.emojis
  {
    if studyId !in s.studies then Reply(s, Err(NotFound))
    else
      var kept := Kept(s.habits, studyId);
      if titles.None? then Reply(s.(habits := kept), Err(InternalError))
      else
        var ts := titles.value;
        var saved := s.(habits := kept + Replacements(ts, studyId, s.nextId), nextId := s.nextId + |ts|);
        if exists i :: 0 <= i < |ts| && ts[i] == "" then Reply(saved, Err(InternalError))
        else
          var study := s.studies[studyId];
          Reply(saved.(studies := s.studies[studyId := study.(habits := FreshIds(s.nextId, |ts|))]), Ok(()))
  }

  /** Replacing one study's habits never touches a habit of another study. */
  lemma ReplaceAllKeepsOtherStudies(s: Store, studyId: Id, titles: Option<seq<string>>)
    requires Wf(s)
    ensures var r := ReplaceAll(s, studyId, titles);
            forall h :: h in s.habits && s.habits[h].studyId != studyId ==>
              h in r.store.habits && r.store.habits[h] == s.habits[h]
  {
  }

  /** After a successful replacement the study's habits are exactly one fresh habit per title,
      and the study's array lists them in title order. */
  lemma ReplaceAllListsTitles(s: Store, studyId: Id, titles: Option<seq<string>>)
    requires Wf(s)
    requires ReplaceAll(s, studyId, titles).result.Ok?
    ensures var r := ReplaceAll(s, studyId, titles);
            var ids := r.store.studies[studyId].habits;
            && |ids| == |titles.value|
            && (forall i :: 0 <= i < |ids| ==>
                  ids[i] in r.store.habits && r.store.habits[ids[i]] == NewlyMade(titles.value[i], studyId))
            && (forall h :: h in r.store.habits && r.store.habits[h].studyId == studyId <==> h in ids)
  {
    var r := ReplaceAll(s, studyId, titles);
    var ts := titles.value;
    var created := Replacements(ts, studyId, s.nextId);
    var ids := FreshIds(s.nextId, |ts|);
    assert r.store.habits == Kept(s.habits, studyId) + created;
    assert r.store.studies[studyId].habits == ids;
    forall i | 0 <= i < |ts|
      ensures ids[i] in created && created[ids[i]] == NewlyMade(ts[i], studyId)
    {
      CoverOne(ts, studyId, s.nextId, i);
    }
    FreshListing(Kept(s.habits, studyId), created, ids, ts, studyId, s.nextId);
  }

  /** A non-empty title has its habit at its own id. */
  lemma CoverOne(titles: seq<string>, studyId: Id, first: Id, i: nat)
    requires i < |titles| && titles[i] != ""
    ensures first + i in Replacements(titles, studyId, first)
    ensures Replacements(titles, studyId, first)[first + i] == NewlyMade(titles[i], studyId)
  {
  }

  /** The habit map a successful replacement leaves, read against the id array it sets. */
  lemma FreshListing(kept: map<Id, Habit>, created: map<Id, Habit>, ids: seq<Id>, titles: seq<string>, studyId: Id, first: Id)
    requires forall h :: h in kept ==> h < first && kept[h].studyId != studyId
    requires forall h :: h in created ==> first <= h < first + |ids| && created[h].studyId == studyId
    requires |ids| == |titles| && forall i :: 0 <= i < |ids| ==> ids[i] == first + i
    requires forall i :: 0 <= i < |ids| ==> ids[i] in created && created[ids[i]] == NewlyMade(titles[i], studyId)
    ensures var m := kept + created;
            && (forall i :: 0 <= i < |ids| ==> ids[i] in m && m[ids[i]] == NewlyMade(titles[i], studyId))
            && (forall h :: h in m && m[h].studyId == studyId <==> h in ids)
  {
    var m := kept + created;
    forall h | h in m
      ensures m[h].studyId == studyId <==> h in ids
    {
      if h in created {
        assert ids[h - first] == h;
      } else {
        assert h < first;
      }
    }
  }

  /** Replacing a study's habits keeps the store invariant, on every outcome. */
  lemma ReplaceAllKeepsWf(s: Store, studyId: Id, titles: Option<seq<string>>)
    requires Wf(s)
    ensures Wf(ReplaceAll(s, studyId, titles).store)
  {
  }

  /** The midnight reset: every habit's weekday map becomes empty, nothing else changes. */
  function ResetAll(s: Store): (r: Store)
    ensures r.habits.Keys == s.habits.Keys
    ensures forall h :: h in r.habits ==> r.habits[h].checkedDays == map[]
    ensures forall h :: h in r.habits ==> r.habits[h].(checkedDays := s.habits[h].checkedDays) == s.habits[h]
    ensures r.(habits := s.habits) == s
    ensures Wf(s) ==> Wf(r)
  {
    s.(habits := map h | h in s.habits :: s.habits[h].(checkedDays := map[]))
  }

  /** Resetting twice is resetting once. */
  lemma ResetIdempotent(s: Store)
    ensures ResetAll(ResetAll(s)) == ResetAll(s)
  {
    assert ResetAll(ResetAll(s)).habits == ResetAll(s).habits;
  }

  /** After a reset no weekday of any habit reads as ticked. */
  lemma ResetClearsEveryDay(s: Store)
    ensures forall h, day :: h in ResetAll(s).habits ==> !Ticked(ResetAll(s).habits[h].checkedDays, day)
  {
  }

  /** Patching a habit twice with the same body is patching it once. */
  lemma PatchIdempotent(s: Store, id: Id, p: HabitPatch)
    requires Patch(s, id, p).result.Ok?
    ensures Patch(Patch(s, id, p).store, id, p) == Patch(s, id, p)
  {
  }

  /** Creating a habit and deleting it again leaves the store as it was, except that the id
      stays used. */
  lemma CreateThenDeleteRestores(s: Store, req: NewHabit)
    requires Wf(s) && Create(s, req).result.Ok?
    ensures var r := Delete(Create(s, req).store, s.nextId);
            r.result.Ok? && r.store == s.(nextId := s.nextId + 1)
  {
    CreateThenDeleteKeepsStudies(s, req);
    assert s.nextId !in s.habits;
  }

  /** The study half of `CreateThenDeleteRestores`: the appended id is pulled out again. */
  lemma CreateThenDeleteKeepsStudies(s: Store, req: NewHabit)
    requires Wf(s) && Create(s, req).result.Ok?
    ensures Delete(Create(s, req).store, s.nextId).store.studies == s.studies
  {
    var study := s.studies[req.studyId];
    NextIdNotInArrays(s, req.studyId);
    PullAppended(study.habits, s.nextId);
    var c := Create(s, req).store;
    assert c.habits[s.nextId].studyId == req.studyId;
    var r := Delete(c, s.nextId);
    assert r.store.studies[req.studyId] == study;
    forall st | st in s.studies ensures r.store.studies[st] == s.studies[st] { }
  }

  /** After a successful replacement, the habit list shows exactly the new habits, one per
      title and in title order. */
  lemma TodayAfterReplaceAll(s: Store, studyId: Id, titles: Option<seq<string>>, password: Option<string>)
    requires Wf(s)
    requires ReplaceAll(s, studyId, titles).result.Ok?
    requires password == s.studies[studyId].password
    ensures var r := Today(ReplaceAll(s, studyId, titles).store, studyId, password);
            && r.Ok?
            && |r.value| == |titles.value|
            && forall i :: 0 <= i < |titles.value| ==> r.value[i] == NewlyMade(titles.value[i], studyId)
  {
    ReplaceAllListsTitles(s, studyId, titles);
  }

  /** No modelled route sets a study's password, so a new study's list opens exactly for a
      body without one, and it is empty. */
  lemma TodayOnNewStudy(s: Store, req: Studies.StudyFields, password: Option<string>)
    requires Studies.Create(s, req).result.Ok?
    ensures var r := Today(Studies.Create(s, req).store, s.nextId, password);
            && (r.Ok? <==> password.None?)
            && (r.Ok? ==> r.value == [])
  {
  }
}

=== FILE: ledger.dfy ===
/** The points ledger: how many points a session earns, and the balance the set of stored
    timers justifies for each user. */
module Ledger {
  import opened Common
  import opened Records

  /** One point per full minute of a session given in seconds (`Math.floor(duration / 60)`).
      Dafny's `/` rounds toward negative infinity for a positive divisor, as `Math.floor` does. */
  function Earned(duration: int): (r: int)
    ensures 60 * r <= duration < 60 * r + 60
    ensures 0 <= duration < 60 ==> r == 0
    ensures duration >= 0 ==> r >= 0
  {
    duration / 60
  }

  /** Earned points never decrease as the duration grows. */
  lemma EarnedMonotone(a: int, b: int)
    requires a <= b
    ensures Earned(a) <= Earned(b)
  {
  }

  /** What timer `t` contributes to user `u`'s balance. */
  function Share(t: Timer, u: Id): (r: int)
    ensures t.userId == u ==> r == t.earnedPoints
    ensures t.userId != u ==> r == 0
  {
    if t.userId == u then t.earnedPoints else 0
  }

  /** The sum of `earnedPoints` over the timers owned by `u`. */
  ghost function Credited(timers: map<Id, Timer>, u: Id): int
    decreases |timers|
  {
    if timers == map[] then 0
    else
      var k :| k in timers;
      SmallerWithout(timers, k);
      Share(timers[k], u) + Credited(timers - {k}, u)
  }

  /** The ledger invariant: every user's balance is what its timers earned. */
  ghost predicate Holds(s: Store) {
    forall u :: u in s.users ==> s.users[u].points == Credited(s.timers, u)
  }

  lemma SmallerWithout(timers: map<Id, Timer>, k: Id)
    requires k in timers
    ensures |timers - {k}| == |timers| - 1
  {
    assert (timers - {k}).Keys == timers.Keys - {k};
  }

  /** The sum does not depend on which timer is taken out first. */
  lemma {:induction false} CreditedRemove(timers: map<Id, Timer>, k: Id, u: Id)
    requires k in timers
    ensures Credited(timers, u) == Share(timers[k], u) + Credited(timers - {k}, u)
    decreases |timers|
  {
    var j :| j in timers && Credited(timers, u) == Share(timers[j], u) + Credited(timers - {j}, u);
    if j != k {
      SmallerWithout(timers, j);
      SmallerWithout(timers, k);
      CreditedRemove(timers - {j}, k, u);
      CreditedRemove(timers - {k}, j, u);
      assert timers - {j} - {k} == timers - {k} - {j};
    }
  }

  /** Storing a new timer adds its share. */
  lemma CreditedInsert(timers: map<Id, Timer>, k: Id, t: Timer, u: Id)
    requires k !in timers
    ensures Credited(timers[k := t], u) == Credited(timers, u) + Share(t, u)
  {
    CreditedRemove(timers[k := t], k, u);
    assert timers[k := t] - {k} == timers;
  }

  /** Overwriting a timer swaps its old share for its new one. */
  lemma CreditedReplace(timers: map<Id, Timer>, k: Id, t: Timer, u: Id)
    requires k in timers
    ensures Credited(timers[k := t], u) == Credited(timers, u) - Share(timers[k], u) + Share(t, u)
  {
    CreditedRemove(timers[k := t], k, u);
    CreditedRemove(timers, k, u);
    assert timers[k := t] - {k} == timers - {k};
  }

  /** Deleting a timer takes its share away. */
  lemma CreditedDelete(timers: map<Id, Timer>, k: Id, u: Id)
    requires k in timers
    ensures Credited(timers - {k}, u) == Credited(timers, u) - Share(timers[k], u)
  {
    CreditedRemove(timers, k, u);
  }

  /** With no negative `earnedPoints` stored, no balance is justified below zero, and each
      timer's share is part of its user's sum. */
  lemma {:induction false} CreditedCoversShare(timers: map<Id, Timer>, k: Id, u: Id)
    requires forall j :: j in timers ==> timers[j].earnedPoints >= 0
    requires k in timers
    ensures Credited(timers, u) >= Share(timers[k], u)
    ensures Credited(timers - {k}, u) >= 0
    decreases |timers|
  {
    CreditedRemove(timers, k, u);
    if timers - {k} != map[] {
      var j :| j in timers - {k};
      SmallerWithout(timers, k);
      CreditedCoversShare(timers - {k}, j, u);
      CreditedRemove(timers - {k}, j, u);
    }
  }

  /** A user no stored timer names is credited nothing. */
  lemma {:induction false} CreditedUnreferenced(timers: map<Id, Timer>, u: Id)
    requires forall j :: j in timers ==> timers[j].userId != u
    ensures Credited(timers, u) == 0
    decreases |timers|
  {
    if timers != map[] {
      var j :| j in timers;
      SmallerWithout(timers, j);
      CreditedRemove(timers, j, u);
      CreditedUnreferenced(timers - {j}, u);
    }
  }

  /** The empty database satisfies the ledger trivially. */
  lemma EmptyHolds()
    ensures Holds(Empty)
  {
  }
}

=== FILE: records.dfy ===
/** The five document kinds, their save-time validation, and the store that holds them. */
module Records {
  import opened Common

  /** A user's point balance; the schema demands `points >= 0`. */
  datatype User = User(points: int)

  /** A study group. `password` is read by the today-habits route although the study schema
      does not declare it; `habits` and `emojis` are the child-id arrays kept by the routes. */
  datatype Study = Study(
    title: string,
    description: Option<string>,
    bg: string,
    password: Option<string>,
    habits: seq<Id>,
    emojis: seq<Id>)

  /** A habit of one study; `checkedDays` maps a weekday name to whether it is ticked. */
  datatype Habit = Habit(title: string, checked: bool, studyId: Id, checkedDays: map<string, bool>)

  /** A reaction counter of one study, keyed by its emoji token. */
  datatype Emoji = Emoji(emoji: string, checked: bool, studyId: Id, count: int)

  /** One recorded study session and the points it credited to its user. */
  datatype Timer = Timer(duration: int, earnedPoints: int, studyId: Id, userId: Id)

  /** Every collection, plus the next id the database will hand out. */
  datatype Store = Store(
    users: map<Id, User>,
    studies: map<Id, Study>,
    habits: map<Id, Habit>,
    emojis: map<Id, Emoji>,
    timers: map<Id, Timer>,
    nextId: Id)

  /** What a handler leaves behind and what it answers. */
  datatype Reply<+T> = Reply(store: Store, result: Result<T>)

  const DefaultBg: string := "#ffffff"

  /** The empty database. */
  const Empty: Store := Store(map[], map[], map[], map[], map[], 0)

  // Save-time validation, one predicate per schema.

  /** `points: { min: 0 }`. */
  predicate ValidUser(u: User) {
    u.points >= 0
  }

  /** `title: { required: true }`. */
  predicate ValidStudy(st: Study) {
    st.title != ""
  }

  /** `title: { required: true }`. */
  predicate ValidHabit(h: Habit) {
    h.title != ""
  }

  /** `emoji: { required: true }`. */
  predicate ValidEmoji(e: Emoji) {
    e.emoji != ""
  }

  /** `duration: { min: 0 }` and `earnedPoints: { min: 0 }`. */
  predicate ValidTimer(t: Timer) {
    t.duration >= 0 && t.earnedPoints >= 0
  }

  /** The store invariant every handler keeps: ids, including those in a study's child
      arrays, are below the counter (so the next id is fresh everywhere), a timer only
      names a user id that was already handed out, and every user, study, habit and timer
      passed its schema's validation when saved. */
  ghost predicate Wf(s: Store) {
    && (forall id :: id in s.users ==> id < s.nextId && ValidUser(s.users[id]))
    && (forall id :: id in s.studies ==> id < s.nextId && ValidStudy(s.studies[id]))
    && (forall id :: id in s.studies ==> Below(s.studies[id].habits, s.nextId) && Below(s.studies[id].emojis, s.nextId))
    && (forall id :: id in s.habits ==> id < s.nextId && ValidHabit(s.habits[id]))
    && (forall id :: id in s.emojis ==> id < s.nextId)
    && (forall id :: id in s.timers ==> id < s.nextId && ValidTimer(s.timers[id]) && s.timers[id].userId < s.nextId)
  }

  /** In a well-formed store no study's arrays hold the id the counter hands out next. */
  lemma NextIdNotInArrays(s: Store, id: Id)
    requires Wf(s) && id in s.studies
    ensures s.nextId !in s.studies[id].habits && s.nextId !in s.studies[id].emojis
  {
  }

  /** Putting back a study whose fields still validate and whose arrays stay below the
      counter keeps the store well formed. */
  lemma PutStudyKeepsWf(s: Store, id: Id, study: Study)
    ensures Wf(s) && id in s.studies && ValidStudy(study)
            && Below(study.habits, s.nextId) && Below(study.emojis, s.nextId)
            ==> Wf(s.(studies := s.studies[id := study]))
  {
  }

  lemma EmptyIsWf()
    ensures Wf(Empty)
  {
  }
}

=== FILE: studies.dfy ===
/** The study routes: creating and patching a study, and deleting it together with its
    habits and emoji counters. */
module Studies {
  import opened Common
  import opened Records
  import Ledger

  /** Body of `POST /studies` and of `PATCH /studies/:id`; each field may be absent. */
  datatype StudyFields = StudyFields(title: Option<string>, description: Option<string>, bg: Option<string>)

  /** `POST /studies`: `bg` falls back to white when absent or empty; the child arrays start
      empty; a missing or empty title fails `required`. */
  function Create(s: Store, req: StudyFields): (r: Reply<Study>)
    ensures r.result.Ok? <==> Truthy(req.title)
    ensures r.result.Err? ==> r == Reply(s, Err(ValidationFailed))
    ensures r.result.Ok? ==>
      && r.result.value.title == req.title.value
      && r.result.value.description == req.description
      && r.result.value.bg == (if Truthy(req.bg) then req.bg.value else DefaultBg)
      && r.result.value.password == None
      && r.result.value.habits == [] && r.result.value.emojis == []
      && r.store.studies == s.studies[s.nextId := r.result.value]
      && r.store.nextId == s.nextId + 1
    ensures r.store.users == s.users && r.store.timers == s.timers
    ensures r.store.habits == s.habits && r.store.emojis == s.emojis
    ensures Wf(s) ==> Wf(r.store)
  {
    var study := Study(RequiredText(req.title), req.description, TextOr(req.bg, DefaultBg), None, [], []);
    if !ValidStudy(study) then Reply(s, Err(ValidationFailed))
    else Reply(s.(studies := s.studies[s.nextId := study], nextId := s.nextId + 1), Ok(study))
  }

  /** `PATCH /studies/:id`: the title and the background change only when the body gives a
      non-empty value; the description changes whenever it is given, even to "". */
  function Patch(s: Store, id: Id, p: StudyFields): (r: Reply<Study>)
    ensures id !in s.studies ==> r == Reply(s, Err(NotFound))
    ensures id in s.studies && ValidStudy(s.studies[id]) ==> r.result.Ok?
    ensures r.result.Err? ==> r.store == s
    ensures r.result.Ok? ==>
      && id in s.studies
      && var before := s.studies[id];
         && r.result.value.title == (if Truthy(p.title) then p.title.value else before.title)
         && r.result.value.description == (if p.description.Some? then p.description else before.description)
         && r.result.value.bg == (if Truthy(p.bg) then p.bg.value else before.bg)
         && r.result.value.(title := before.title, description := before.description, bg := before.bg) == before
         && r.store == s.(studies := s.studies[id := r.result.value])
    ensures Wf(s) ==> Wf(r.store)
  {
    if id !in s.studies then Reply(s, Err(NotFound))
    else
      var before := s.studies[id];
      var study := before.(
        title := TextOr(p.title, before.title),
        description := if p.description.Some? then p.description else before.description,
        bg := TextOr(p.bg, before.bg));
      if !ValidStudy(study) then Reply(s, Err(ValidationFailed))
      else Reply(s.(studies := s.studies[id := study]), Ok(study))
  }

  /** `DELETE /studies/:id`: every habit and emoji counter of the study goes with it; timers,
      and therefore every balance, are left as they are. */
  function Delete(s: Store, id: Id): (r: Reply<()>)
    ensures id !in s.studies ==> r == Reply(s, Err(NotFound))
    ensures id in s.studies ==> r.result.Ok?
    ensures r.result.Ok? ==>
      && r.store.studies == s.studies - {id}
      && (forall h :: h in r.store.habits ==> r.store.habits[h].studyId != id)
      && (forall e :: e in r.store.emojis ==> r.store.emojis[e].studyId != id)
      && (forall h :: h in s.habits ==> (h in r.store.habits <==> s.habits[h].studyId != id))
      && (forall e :: e in s.emojis ==> (e in r.store.emojis <==> s.emojis[e].studyId != id))
      && r.store.habits.Keys <= s.habits.Keys && r.store.emojis.Keys <= s.emojis.Keys
      && (forall h :: h in r.store.habits ==> r.store.habits[h] == s.habits[h])
      && (forall e :: e in r.store.emojis ==> r.store.emojis[e] == s.emojis[e])
    ensures r.store.users == s.users && r.store.timers == s.timers && r.store.nextId == s.nextId
    ensures Wf(s) ==> Wf(r.store)
  {
    if id !in s.studies then Reply(s, Err(NotFound))
    else
      var habits := map h | h in s.habits && s.habits[h].studyId != id :: s.habits[h];
      var emojis := map e | e in s.emojis && s.emojis[e].studyId != id :: s.emojis[e];
      Reply(s.(studies := s.studies - {id}, habits := habits, emojis := emojis), Ok(()))
  }

  /** Patching a study twice with the same body is patching it once. */
  lemma PatchIdempotent(s: Store, id: Id, p: StudyFields)
    requires Patch(s, id, p).result.Ok?
    ensures Patch(Patch(s, id, p).store, id, p) == Patch(s, id, p)
  {
  }

  /** Creating a study and deleting it again leaves the store as it was, except that the id
      stays used, provided nothing already pointed at the id the study receives. */
  lemma CreateThenDeleteRestores(s: Store, req: StudyFields)
    requires Wf(s) && Create(s, req).result.Ok?
    requires forall h :: h in s.habits ==> s.habits[h].studyId != s.nextId
    requires forall e :: e in s.emojis ==> s.emojis[e].studyId != s.nextId
    ensures var r := Delete(Create(s, req).store, s.nextId);
            r.result.Ok? && r.store == s.(nextId := s.nextId + 1)
  {
    var r := Delete(Create(s, req).store, s.nextId);
    assert r.store.studies == s.studies;
    assert r.store.habits == s.habits;
    assert r.store.emojis == s.emojis;
  }

  /** Deleting a study leaves every balance and every timer alone, so the ledger survives
      it; the timers recorded against the study keep their credit. */
  lemma DeleteKeepsLedger(s: Store, id: Id)
    requires Ledger.Holds(s)
    ensures Ledger.Holds(Delete(s, id).store)
    ensures Delete(s, id).store.timers == s.timers
  {
  }
}

=== FILE: timers.dfy ===
/** The timer routes: recording, editing and deleting a study session, each of which moves
    the owning user's point balance. */
module Timers {
  import opened Common
  import opened Records
  import Ledger

  /** Body of `POST /timers`. */
  datatype NewTimer = NewTimer(userId: Id, studyId: Id, duration: int)

  /** Body of `PATCH /timers/:id`; each field may be absent. */
  datatype TimerPatch = TimerPatch(duration: Option<int>, earnedPoints: Option<int>)

  /** `POST /timers`: the user is looked up before the study; the timer is saved first and
      the user's balance is credited afterwards. */
  function Create(s: Store, req: NewTimer): (r: Reply<Timer>)
    ensures req.userId !in s.users ==> r == Reply(s, Err(NotFound))
    ensures req.studyId !in s.studies ==> r.store == s && r.result == Err(NotFound)
    ensures req.duration < 0 ==> r.store == s && r.result.Err?
    ensures r.result.Ok? ==>
      && req.userId in s.users
      && r.result.value == Timer(req.duration, Ledger.Earned(req.duration), req.studyId, req.userId)
      && r.store.timers.Keys == s.timers.Keys + {s.nextId}
      && r.store.timers[s.nextId] == r.result.value
      && (forall t :: t in s.timers && t != s.nextId ==> r.store.timers[t] == s.timers[t])
      && r.store.users.Keys == s.users.Keys
      && r.store.users[req.userId].points == s.users[req.userId].points + req.duration / 60
      && (forall u :: u in s.users && u != req.userId ==> r.store.users[u] == s.users[u])
    ensures r.store.studies == s.studies && r.store.habits == s.habits && r.store.emojis == s.emojis
    ensures Wf(s) ==> Wf(r.store)
    ensures Wf(s) && req.userId in s.users && req.studyId in s.studies && req.duration >= 0 ==> r.result.Ok?
  {
    if req.userId !in s.users then Reply(s, Err(NotFound))
    else if req.studyId !in s.studies then Reply(s, Err(NotFound))
    else
      var earned := Ledger.Earned(req.duration);
      var timer := Timer(req.duration, earned, req.studyId, req.userId);
      if !ValidTimer(timer) then Reply(s, Err(ValidationFailed))
      else
        var saved := s.(timers := s.timers[s.nextId := timer], nextId := s.nextId + 1);
        var user := User(s.users[req.userId].points + earned);
        if !ValidUser(user) then Reply(saved, Err(ValidationFailed))
        else Reply(saved.(users := s.users[req.userId := user]), Ok(timer))
  }

  /** The earned points a patch leaves on the timer: a new duration recomputes them, and an
      explicit `earnedPoints` in the same body overrides the recomputed value. */
  function PatchedEarned(t: Timer, p: TimerPatch): (r: int)
    ensures p.earnedPoints.Some? ==> r == p.earnedPoints.value
    ensures p.earnedPoints.None? && p.duration.Some? ==> r == Ledger.Earned(p.duration.value)
    ensures p.earnedPoints.None? && p.duration.None? ==> r == t.earnedPoints
  {
    if p.earnedPoints.Some? then p.earnedPoints.value
    else if p.duration.Some? then Ledger.Earned(p.duration.value)
    else t.earnedPoints
  }

  /** The timer a patch produces; the owner and the study never change. */
  function Patched(t: Timer, p: TimerPatch): (r: Timer)
    ensures r.studyId == t.studyId && r.userId == t.userId
    ensures r.duration == (if p.duration.Some? then p.duration.value else t.duration)
    ensures r.earnedPoints == PatchedEarned(t, p)
  {
    Timer(if p.duration.Some? then p.duration.value else t.duration, PatchedEarned(t, p), t.studyId, t.userId)
  }

  /** `PATCH /timers/:id`: the timer is saved before its user is looked up, so a missing user
      or a balance the user schema rejects fails the request after the timer changed. When the
      earned points did not change, the user is not touched. */
  function Edit(s: Store, id: Id, p: TimerPatch): (r: Reply<Timer>)
    ensures id !in s.timers ==> r == Reply(s, Err(NotFound))
    ensures id in s.timers && !ValidTimer(Patched(s.timers[id], p)) ==> r == Reply(s, Err(ValidationFailed))
    ensures id in s.timers && ValidTimer(Patched(s.timers[id], p)) ==>
      && r.store.timers == s.timers[id := Patched(s.timers[id], p)]
      && r.store.users.Keys == s.users.Keys
      && (forall u :: u in s.users && u != s.timers[id].userId ==> r.store.users[u] == s.users[u])
    ensures r.result.Ok? ==>
      && id in s.timers
      && r.result.value == Patched(s.timers[id], p)
      && (r.result.value.earnedPoints == s.timers[id].earnedPoints ==> r.store.users == s.users)
      && (r.result.value.earnedPoints != s.timers[id].earnedPoints ==>
           && s.timers[id].userId in s.users
           && r.store.users[s.timers[id].userId].points
              == s.users[s.timers[id].userId].points - s.timers[id].earnedPoints + r.result.value.earnedPoints)
    ensures id in s.timers && ValidTimer(Patched(s.timers[id], p)) && s.timers[id].userId !in s.users
            && Patched(s.timers[id], p).earnedPoints != s.timers[id].earnedPoints
            ==> r.result == Err(InternalError) && r.store.timers[id] == Patched(s.timers[id], p)
    ensures r.result.Ok? <==>
      && id in s.timers && ValidTimer(Patched(s.timers[id], p))
      && (|| Patched(s.timers[id], p).earnedPoints == s.timers[id].earnedPoints
          || (&& s.timers[id].userId in s.users
              && s.users[s.timers[id].userId].points - s.timers[id].earnedPoints
                 + Patched(s.timers[id], p).earnedPoints >= 0))
    ensures r.result.Err? ==> r.store.users == s.users
    ensures r.store.studies == s.studies && r.store.habits == s.habits && r.store.emojis == s.emojis
    ensures r.store.nextId == s.nextId
    ensures Wf(s) ==> Wf(r.store)
  {
    if id !in s.timers then Reply(s, Err(NotFound))
    else
      var prior := s.timers[id];
      var timer := Patched(prior, p);
      if !ValidTimer(timer) then Reply(s, Err(ValidationFailed))
      else
        var saved := s.(timers := s.timers[id := timer]);
        if prior.earnedPoints == timer.earnedPoints then Reply(saved, Ok(timer))
        else if prior.userId !in s.users then Reply(saved, Err(InternalError))
        else
          var user := User(s.users[prior.userId].points - prior.earnedPoints + timer.earnedPoints);
          if !ValidUser(user) then Reply(saved, Err(ValidationFailed))
          else Reply(saved.(users := s.users[prior.userId := user]), Ok(timer))
  }

  /** `DELETE /timers/:id`: the timer's points come off its user first; a balance the user
      schema rejects, or a missing user, leaves the timer in place. */
  function Delete(s: Store, id: Id): (r: Reply<()>)
    ensures id !in s.timers ==> r == Reply(s, Err(NotFound))
    ensures id in s.timers && s.timers[id].userId !in s.users ==> r == Reply(s, Err(InternalError))
    ensures r.result.Err? ==> r.store == s
    ensures r.result.Ok? <==>
      id in s.timers && s.timers[id].userId in s.users
      && s.users[s.timers[id].userId].points >= s.timers[id].earnedPoints
    ensures r.result.Ok? ==>
      && r.store.timers == s.timers - {id}
      && var owner := s.timers[id].userId;
         && r.store.users.Keys == s.users.Keys
         && r.store.users[owner].points == s.users[owner].points - s.timers[id].earnedPoints
         && (forall u :: u in s.users && u != owner ==> r.store.users[u] == s.users[u])
    ensures r.store.studies == s.studies && r.store.habits == s.habits && r.store.emojis == s.emojis
    ensures r.store.nextId == s.nextId
    ensures Wf(s) ==> Wf(r.store)
  {
    if id !in s.timers then Reply(s, Err(NotFound))
    else
      var timer := s.timers[id];
      if timer.userId !in s.users then Reply(s, Err(InternalError))
      else
        var user := User(s.users[timer.userId].points - timer.earnedPoints);
        if !ValidUser(user) then Reply(s, Err(ValidationFailed))
        else Reply(s.(users := s.users[timer.userId := user], timers := s.timers - {id}), Ok(()))
  }

  // The ledger invariant across the three timer routes.

  /** Creating a timer keeps every balance equal to what the user's timers earned, whatever
      the request's outcome. */
  lemma CreateKeepsLedger(s: Store, req: NewTimer)
    requires Wf(s) && Ledger.Holds(s)
    ensures Ledger.Holds(Create(s, req).store)
  {
    var r := Create(s, req);
    if req.userId in s.users && req.studyId in s.studies && req.duration >= 0 {
      var timer := r.result.value;
      forall u | u in r.store.users
        ensures r.store.users[u].points == Ledger.Credited(r.store.timers, u)
      {
        Ledger.CreditedInsert(s.timers, s.nextId, timer, u);
        assert r.store.timers == s.timers[s.nextId := timer];
      }
    }
  }

  /** Editing a timer keeps the ledger, including when its user is missing (that user has no
      balance to disagree with) and including the branch where the timer is saved first. */
  lemma EditKeepsLedger(s: Store, id: Id, p: TimerPatch)
    requires Wf(s) && Ledger.Holds(s)
    ensures Ledger.Holds(Edit(s, id, p).store)
  {
    var r := Edit(s, id, p);
    if id in s.timers && ValidTimer(Patched(s.timers[id], p)) {
      var prior := s.timers[id];
      var timer := Patched(prior, p);
      if prior.userId in s.users {
        Ledger.CreditedCoversShare(s.timers, id, prior.userId);
      }
      forall u | u in r.store.users
        ensures r.store.users[u].points == Ledger.Credited(r.store.timers, u)
      {
        Ledger.CreditedReplace(s.timers, id, timer, u);
      }
    }
  }

  /** Deleting a timer keeps the ledger. */
  lemma DeleteKeepsLedger(s: Store, id: Id)
    requires Ledger.Holds(s)
    ensures Ledger.Holds(Delete(s, id).store)
  {
    var r := Delete(s, id);
    if r.result.Ok? {
      forall u | u in r.store.users
        ensures r.store.users[u].points == Ledger.Credited(r.store.timers, u)
      {
        Ledger.CreditedDelete(s.timers, id, u);
      }
    }
  }

  /** Under the ledger a timer edit never fails after saving the timer unless its user is
      gone: the rebalanced points cannot drop below zero. */
  lemma EditRebalanceNeverRejected(s: Store, id: Id, p: TimerPatch)
    requires Wf(s) && Ledger.Holds(s)
    requires id in s.timers && s.timers[id].userId in s.users
    ensures Edit(s, id, p).result.Ok? <==> ValidTimer(Patched(s.timers[id], p))
  {
    Ledger.CreditedCoversShare(s.timers, id, s.timers[id].userId);
  }

  /** Deleting a timer whose points match its duration and then recording the same session
      again gives the user back exactly the balance it had. */
  lemma DeleteThenCreateRestoresBalance(s: Store, id: Id)
    requires Wf(s)
    requires id in s.timers
    requires s.timers[id].earnedPoints == Ledger.Earned(s.timers[id].duration)
    requires s.timers[id].studyId in s.studies
    requires Delete(s, id).result.Ok?
    ensures var t := s.timers[id];
            var again := Create(Delete(s, id).store, NewTimer(t.userId, t.studyId, t.duration));
            && again.result.Ok?
            && again.store.users[t.userId] == s.users[t.userId]
  {
  }

  // Repeated edits of one timer.

  /** The store after applying each patch in turn to timer `id`, whatever each answered. */
  function EditAll(s: Store, id: Id, patches: seq<TimerPatch>): Store
    decreases |patches|
  {
    if patches == [] then s
    else EditAll(Edit(s, id, patches[0]).store, id, patches[1..])
  }

  /** One edit keeps `points - earnedPoints` of the timer's owner fixed, as long as the owner
      exists and holds at least the timer's points. */
  lemma EditKeepsOwnerOffset(s: Store, id: Id, p: TimerPatch)
    requires Wf(s) && id in s.timers
    requires s.timers[id].userId in s.users
    requires s.users[s.timers[id].userId].points >= s.timers[id].earnedPoints
    ensures var s' := Edit(s, id, p).store;
            var owner := s.timers[id].userId;
            && Wf(s') && id in s'.timers && s'.timers[id].userId == owner && owner in s'.users
            && s'.users[owner].points - s'.timers[id].earnedPoints
               == s.users[owner].points - s.timers[id].earnedPoints
  {
  }

  /** However many edits a timer goes through, its owner ends at the starting balance minus
      the original earned points plus the final earned points: edits apply deltas, and the
      deltas telescope. */
  lemma {:induction false} EditAllNetEffect(s: Store, id: Id, patches: seq<TimerPatch>)
    requires Wf(s) && id in s.timers
    requires s.timers[id].userId in s.users
    requires s.users[s.timers[id].userId].points >= s.timers[id].earnedPoints
    ensures var s' := EditAll(s, id, patches);
            var owner := s.timers[id].userId;
            && id in s'.timers && owner in s'.users
            && s'.users[owner].points
               == s.users[owner].points - s.timers[id].earnedPoints + s'.timers[id].earnedPoints
    decreases |patches|
  {
    if patches != [] {
      var s1 := Edit(s, id, patches[0]).store;
      EditKeepsOwnerOffset(s, id, patches[0]);
      EditAllNetEffect(s1, id, patches[1..]);
    }
  }

  /** Recording a session and deleting it again gives every balance and the timer set back;
      only the used id remains used. */
  lemma CreateThenDeleteRestores(s: Store, req: NewTimer)
    requires Wf(s) && Create(s, req).result.Ok?
    ensures var r := Delete(Create(s, req).store, s.nextId);
            r.result.Ok? && r.store == s.(nextId := s.nextId + 1)
  {
    var r := Delete(Create(s, req).store, s.nextId);
    assert r.store.timers == s.timers;
    assert r.store.users == s.users;
  }
}

=== FILE: users.dfy ===
/** The user routes: creating a user, overwriting or adding to a balance, and deleting a user.
    None of them looks at timers, so only deletion is guaranteed to keep the ledger. */
module Users {
  import opened Common
  import opened Records
  import Ledger

  /** `POST /users`: the balance starts at `body.points || 0`; a negative one fails `min: 0`. */
  function Create(s: Store, points: Option<int>): (r: Reply<User>)
    ensures r.result.Ok? <==> NumberOrZero(points) >= 0
    ensures r.result.Err? ==> r == Reply(s, Err(ValidationFailed))
    ensures r.result.Ok? ==>
      && r.result.value.points == NumberOrZero(points)
      && r.store.users == s.users[s.nextId := r.result.value]
      && r.store.nextId == s.nextId + 1
    ensures r.store.timers == s.timers && r.store.studies == s.studies
    ensures r.store.habits == s.habits && r.store.emojis == s.emojis
    ensures Wf(s) ==> Wf(r.store)
  {
    var user := User(NumberOrZero(points));
    if !ValidUser(user) then Reply(s, Err(ValidationFailed))
    else Reply(s.(users := s.users[s.nextId := user], nextId := s.nextId + 1), Ok(user))
  }

  /** `PATCH /users/:id/points`: the balance is overwritten with the given value. */
  function SetPoints(s: Store, id: Id, points: int): (r: Reply<User>)
    ensures id !in s.users ==> r == Reply(s, Err(NotFound))
    ensures id in s.users && points < 0 ==> r == Reply(s, Err(ValidationFailed))
    ensures r.result.Ok? <==> id in s.users && points >= 0
    ensures r.result.Ok? ==>
      && r.result.value == User(points)
      && r.store == s.(users := s.users[id := User(points)])
    ensures Wf(s) ==> Wf(r.store)
  {
    if id !in s.users then Reply(s, Err(NotFound))
    else
      var user := User(points);
      if !ValidUser(user) then Reply(s, Err(ValidationFailed))
      else Reply(s.(users := s.users[id := user]), Ok(user))
  }

  /** `PATCH /users/:id/add-points`: `points + (body.points || 0)`; an absent amount is a
      no-op and a negative total fails `min: 0`. */
  function AddPoints(s: Store, id: Id, amount: Option<int>): (r: Reply<User>)
    ensures id !in s.users ==> r == Reply(s, Err(NotFound))
    ensures r.result.Err? ==> r.store == s
    ensures r.result.Ok? <==> id in s.users && s.users[id].points + NumberOrZero(amount) >= 0
    ensures r.result.Ok? ==>
      && r.result.value.points == s.users[id].points + NumberOrZero(amount)
      && r.store == s.(users := s.users[id := r.result.value])
    ensures amount.None? && id in s.users && ValidUser(s.users[id]) ==> r == Reply(s, Ok(s.users[id]))
    ensures Wf(s) ==> Wf(r.store)
  {
    if id !in s.users then Reply(s, Err(NotFound))
    else
      var user := User(s.users[id].points + NumberOrZero(amount));
      if !ValidUser(user) then Reply(s, Err(ValidationFailed))
      else Reply(s.(users := s.users[id := user]), Ok(user))
  }

  /** `DELETE /users/:id`: only that user goes; timers naming it stay. */
  function Delete(s: Store, id: Id): (r: Reply<()>)
    ensures id !in s.users ==> r == Reply(s, Err(NotFound))
    ensures id in s.users ==> r.result.Ok? && r.store == s.(users := s.users - {id})
    ensures r.store.users.Keys == s.users.Keys - {id}
    ensures forall u :: u in r.store.users ==> r.store.users[u] == s.users[u]
    ensures Wf(s) ==> Wf(r.store)
  {
    if id !in s.users then Reply(s, Err(NotFound))
    else Reply(s.(users := s.users - {id}), Ok(()))
  }

  // What each route does to the ledger invariant.

  /** A new user keeps the ledger exactly when it starts with no points: no timer can name an
      id that was never handed out. */
  lemma CreateKeepsLedgerIff(s: Store, points: Option<int>)
    requires Wf(s) && Ledger.Holds(s)
    requires Create(s, points).result.Ok?
    ensures Ledger.Holds(Create(s, points).store) <==> NumberOrZero(points) == 0
  {
    Ledger.CreditedUnreferenced(s.timers, s.nextId);
    var r := Create(s, points);
    assert s.nextId in r.store.users;
  }

  /** Overwriting a balance keeps the ledger exactly when the new value is the old one, so
      any other value breaks it. */
  lemma SetPointsKeepsLedgerIff(s: Store, id: Id, points: int)
    requires Ledger.Holds(s)
    requires SetPoints(s, id, points).result.Ok?
    ensures Ledger.Holds(SetPoints(s, id, points).store) <==> points == s.users[id].points
  {
    var r := SetPoints(s, id, points);
    assert id in r.store.users;
  }

  /** Adding points keeps the ledger exactly when nothing (or zero) is added. */
  lemma AddPointsKeepsLedgerIff(s: Store, id: Id, amount: Option<int>)
    requires Ledger.Holds(s)
    requires AddPoints(s, id, amount).result.Ok?
    ensures Ledger.Holds(AddPoints(s, id, amount).store) <==> NumberOrZero(amount) == 0
  {
    var r := AddPoints(s, id, amount);
    assert id in r.store.users;
  }

  /** Deleting a user keeps the ledger for everyone left. */
  lemma DeleteKeepsLedger(s: Store, id: Id)
    requires Ledger.Holds(s)
    ensures Ledger.Holds(Delete(s, id).store)
  {
  }

  /** Creating a user and deleting it again leaves the store as it was, except that the id
      stays used. */
  lemma CreateThenDeleteRestores(s: Store, points: Option<int>)
    requires Wf(s) && Create(s, points).result.Ok?
    ensures var r := Delete(Create(s, points).store, s.nextId);
            r.result.Ok? && r.store == s.(nextId := s.nextId + 1)
  {
    var r := Delete(Create(s, points).store, s.nextId);
    assert r.store.users == s.users;
  }

  /** Two overwrites of a balance: the last one wins. */
  lemma SetPointsLastWins(s: Store, id: Id, first: int, second: int)
    requires SetPoints(s, id, first).result.Ok? && second >= 0
    ensures SetPoints(SetPoints(s, id, first).store, id, second).store == SetPoints(s, id, second).store
  {
  }

  /** Two additions that both succeed are one addition of their sum. */
  lemma AddPointsAccumulates(s: Store, id: Id, a: int, b: int)
    requires AddPoints(s, id, Some(a)).result.Ok?
    requires s.users[id].points + a + b >= 0
    ensures AddPoints(AddPoints(s, id, Some(a)).store, id, Some(b)) == AddPoints(s, id, Some(a + b))
  {
  }
}
